=== FILE: README.md ===
# Onboarding flow: registration, selfie capture and their checks

This project models, in Dafny, the logic at the centre of an Android
onboarding flow. The flow collects four registration fields and validates
them. It stores a pending registration in a local table. It then captures a
selfie behind a smile check, stores it, and attaches it to the registration.
The model covers the pieces of that flow that decide something. Every camera,
face detector, file system and clock is an oracle that the caller passes in.

| file | module | models |
|---|---|---|
| `wrappers.dfy` | `Wrappers` | `Option`, Kotlin's nullable values |
| `text.dfy` | `Text` | ASCII character classes, `isBlank`, `lowercase`, UTF-16 `length`, `%d` formatting, greedy regex runs |
| `seqs.dfy` | `Seqs` | counting occurrences in effect traces |
| `exceptions.dfy` | `Exceptions` | exception kinds and nullable messages; `Outcome`, meaning returned or threw |
| `validation_service.dfy` | `ValidationService` | the SDK's `DefaultValidationService` |
| `form_validators.dfy` | `FormValidators` | the SDK's `ValidatePhoneNumber` and `ValidatePassword`, and the app's `ValidateEmail` |
| `registration_store.dfy` | `RegistrationStore` | the `user_registrations` table and its DAO |
| `registration_repository.dfy` | `RegistrationRepository` | `RegistrationRepositoryImpl` |
| `save_registration.dfy` | `SaveRegistrationUseCase` | `SaveRegistration`, which has the same code in the SDK and the app |
| `registration_view_model.dfy` | `RegistrationViewModel` | the SDK's registration form reducer and its submit step |
| `face_detection.dfy` | `FaceDetection` | what the face detector reports |
| `smile_analyzer.dfy` | `SmileAnalyzer` | `SmileDetectionAnalyzer`, the three-frame smile debounce |
| `capture_guard.dfy` | `CaptureGuard` | the analyzer in the SDK selfie screen's `setupCamera` |
| `selfie_store.dfy` | `SelfieStore` | `SelfieRepositoryImpl`, one file per registration |
| `selfie_view_model.dfy` | `SelfieViewModel` | the SDK's `SelfieViewModel` |
| `capture_selfie_use_case.dfy` | `CaptureSelfieUseCase` | `CaptureSelfieUseCase` and its emission protocol |
| `app_selfie_capture.dfy` | `AppSelfieCapture` | the app's `SelfieViewModel.capturePhoto` |
| `error_utils.dfy` | `ErrorUtils` | the `ValifyError` codes and messages |

How things are modelled:

- **Regular expressions.** Each anchored regular expression is written in
  two ways. One is a ghost predicate that splits the input into the pattern's
  parts. The other is a greedy scan. A lemma proves the two agree.
- **The table.** The table is a sequence of rows plus the next
  auto-increment id. Its invariant is `Valid`: ids, usernames and emails are
  unique, and every id is below the next one. Inserts abort on any conflict.
- **View models.** Each view model is a pure step function from one state
  record to the next. Each launched coroutine is one atomic step, applied in
  the order it was issued.
- **Traces.** The analyzers return effect traces, such as frame closes,
  signals and capture requests, so that "closed exactly once" and "fires at
  most once" can be stated directly.

Behaviour of the code worth noting:

- The username check is "at least three UTF-16 units", with spaces counted.
  It is not "non-blank".
- `Submit` registers without looking at `isFormValid`.
- In the SDK selfie screen, the automatic capture fires on a single frame
  whose first face is above 0.8. There is no three-frame debounce on that
  path. The debounce lives only in `SmileDetectionAnalyzer`.
- `updateSelfieImage` does not target the registration it is given. It
  updates the latest incomplete row (see Findings).

## Model

| member | source | states |
|---|---|---|
| ValidationService.ScanEmailCorrect | registration_sdk/src/main/java/com/valify/registrationsdk/data/validation/DefaultValidationService.kt:11 | The greedy scan accepts a string exactly when the string splits as `[a-zA-Z0-9._-]+ @ [a-z]+ \.+ [a-z]+` |
| ValidationService.ScanEmailDomainCorrect | registration_sdk/src/main/java/com/valify/registrationsdk/data/validation/DefaultValidationService.kt:11 | The scan of the part after '@' agrees with the pattern's letters, dots, letters split |
| ValidationService.ValidateEmail | registration_sdk/src/main/java/com/valify/registrationsdk/data/validation/DefaultValidationService.kt:17-23 | Empty input gives "Email is required". Other input succeeds exactly when it matches the pattern, and otherwise gives "Invalid email format" |
| ValidationService.AcceptedEmailShape | registration_sdk/src/main/java/com/valify/registrationsdk/data/validation/DefaultValidationService.kt:11 | An accepted email has exactly one '@'. After it come only lower-case letters and dots, starting and ending with a letter, with at least one dot and all the dots in one run |
| ValidationService.EmailRejectsTwoDomainDots | registration_sdk/src/main/java/com/valify/registrationsdk/data/validation/DefaultValidationService.kt:11 | "a@b.c.d" is rejected as malformed |
| ValidationService.BlankEmailIsMalformed | registration_sdk/src/main/java/com/valify/registrationsdk/data/validation/DefaultValidationService.kt:19-20 | Three spaces are not empty, so the email check reports a bad format, not a missing email |
| ValidationService.ScanPhoneCorrect | registration_sdk/src/main/java/com/valify/registrationsdk/data/validation/DefaultValidationService.kt:12 | The scan agrees with `^[+]?[0-9]{10,13}$`, meaning an optional '+' and then 10 to 13 digits |
| ValidationService.ValidatePhone | registration_sdk/src/main/java/com/valify/registrationsdk/data/validation/DefaultValidationService.kt:25-31 | Empty input gives "Phone number is required". Other input succeeds exactly on a pattern match, and otherwise gives "Invalid phone number format" |
| ValidationService.AcceptedPhoneShape | registration_sdk/src/main/java/com/valify/registrationsdk/data/validation/DefaultValidationService.kt:12 | An accepted phone has 10 to 14 characters, all digits except at most one leading '+' |
| ValidationService.ValidateUsername | registration_sdk/src/main/java/com/valify/registrationsdk/data/validation/DefaultValidationService.kt:33-39 | Succeeds exactly when the length, counted in UTF-16 units as Kotlin does, is at least 3. Empty and short inputs get their own messages |
| ValidationService.SpacesUsernameAccepted | registration_sdk/src/main/java/com/valify/registrationsdk/data/validation/DefaultValidationService.kt:33-39 | A username of three spaces is accepted |
| ValidationService.EmojiUsernameAccepted | registration_sdk/src/main/java/com/valify/registrationsdk/data/validation/DefaultValidationService.kt:36 | Two emoji are four UTF-16 units, so they pass the length check, while "ab" is too short |
| ValidationService.ValidatePassword | registration_sdk/src/main/java/com/valify/registrationsdk/data/validation/DefaultValidationService.kt:41-50 | Reports the first failing check in the order empty, shorter than 8 UTF-16 units, no digit, no upper-case, no lower-case. Succeeds exactly when all of them pass |
| FormValidators.ScanEgyptianPhoneCorrect | registration_sdk/src/main/java/com/valify/registrationsdk/presentation/registration/validation/ValidatePhoneNumber.kt:26 | The scan agrees with `^(\+20\|0)\d{10}$` |
| FormValidators.ValidatePhoneNumber | registration_sdk/src/main/java/com/valify/registrationsdk/presentation/registration/validation/ValidatePhoneNumber.kt:6-22 | Blank input fails with "Phone number cannot be blank". Other input succeeds exactly on a pattern match, and otherwise fails with "That's not a valid phone number". The result carries a message exactly when it failed |
| FormValidators.AcceptedPhoneNumberLength | registration_sdk/src/main/java/com/valify/registrationsdk/presentation/registration/validation/ValidatePhoneNumber.kt:26 | An accepted number has 11 characters starting with "0", or 13 characters starting with "+20" |
| FormValidators.ValidatePassword | registration_sdk/src/main/java/com/valify/registrationsdk/presentation/registration/validation/ValidatePassword.kt:6-24 | Fewer than 8 UTF-16 units fails with the length message, whatever the content. Otherwise it fails with the letter-and-digit message unless some letter and some digit occur. The message is present exactly on failure |
| FormValidators.PasswordMonotone | registration_sdk/src/main/java/com/valify/registrationsdk/presentation/registration/validation/ValidatePassword.kt:7-20 | Appending characters to an accepted password keeps it accepted |
| FormValidators.EmojiPasswordLength | registration_sdk/src/main/java/com/valify/registrationsdk/presentation/registration/validation/ValidatePassword.kt:7-20 | "a1" and three emoji is five characters but eight UTF-16 units, so it is accepted. "a1bcdef" is too short |
| FormValidators.ScanAppEmailCorrect | app/src/main/java/com/valify/presentation/registration/validation/ValidateEmail.kt:26-27 | The scan agrees with `^[A-Za-z0-9+_.-]+@[A-Za-z0-9.-]+\.[A-Za-z]{2,6}$` |
| FormValidators.ScanAppDomainCorrect | app/src/main/java/com/valify/presentation/registration/validation/ValidateEmail.kt:27 | The domain scan agrees with the pattern: the suffix is the trailing run of letters after the last '.' |
| FormValidators.ValidateEmail | app/src/main/java/com/valify/presentation/registration/validation/ValidateEmail.kt:7-23 | Blank input fails with "Email cannot be blank". Other input succeeds exactly on a pattern match, and otherwise fails with "That's not a valid email" |
| FormValidators.AcceptedAppEmailShape | app/src/main/java/com/valify/presentation/registration/validation/ValidateEmail.kt:26-27 | An accepted email has exactly one '@' and no whitespace. After some '.' it ends in 2 to 6 letters |
| RegistrationStore.NewEntity | registration_sdk/src/main/java/com/valify/registrationsdk/data/local/entity/UserRegistrationEntity.kt:14-24 | A new row has id 0, so the table assigns one. It has no selfie and is not completed |
| RegistrationStore.EmptyTableValid | registration_sdk/src/main/java/com/valify/registrationsdk/data/local/entity/UserRegistrationEntity.kt:9-16 | The empty table satisfies the primary-key and both unique-index constraints |
| RegistrationStore.IsUsernameTaken | registration_sdk/src/main/java/com/valify/registrationsdk/data/local/dao/UserRegistrationDao.kt:18-19 | True exactly when some row has that username |
| RegistrationStore.IsEmailTaken | registration_sdk/src/main/java/com/valify/registrationsdk/data/local/dao/UserRegistrationDao.kt:21-22 | True exactly when some row has that email |
| RegistrationStore.IsIdTaken | registration_sdk/src/main/java/com/valify/registrationsdk/data/local/entity/UserRegistrationEntity.kt:15-16 | True exactly when some row has that primary key |
| RegistrationStore.Insert | registration_sdk/src/main/java/com/valify/registrationsdk/data/local/dao/UserRegistrationDao.kt:9-10 | Aborts exactly on a username, email or explicit-id conflict. On success the row is appended under the returned id, which is the next auto-increment value when the row's id was 0 |
| RegistrationStore.InsertPreservesValid | registration_sdk/src/main/java/com/valify/registrationsdk/data/local/dao/UserRegistrationDao.kt:9-10 | A successful insert returns an id no row had before, and keeps ids, usernames and emails unique |
| RegistrationStore.InsertTwiceAborts | registration_sdk/src/main/java/com/valify/registrationsdk/data/local/dao/UserRegistrationDao.kt:9-10 | Inserting the same row again aborts |
| RegistrationStore.LatestIncomplete | registration_sdk/src/main/java/com/valify/registrationsdk/data/local/dao/UserRegistrationDao.kt:15-16 | Gives none exactly when every row is completed. Otherwise it gives an incomplete row whose id is at least every incomplete row's id |
| RegistrationStore.LatestIncompleteUnique | registration_sdk/src/main/java/com/valify/registrationsdk/data/local/dao/UserRegistrationDao.kt:15-16 | In a valid table the query returns exactly the incomplete row with the greatest id |
| RegistrationStore.Update | registration_sdk/src/main/java/com/valify/registrationsdk/data/local/dao/UserRegistrationDao.kt:12-13 | With no row holding the id, nothing changes and nothing aborts. Otherwise it aborts exactly when another row holds the new username or email, and else replaces the matching row and leaves every other row |
| RegistrationStore.UpdateMissingIdIsNoOp | registration_sdk/src/main/java/com/valify/registrationsdk/data/local/dao/UserRegistrationDao.kt:12-13 | An update for a missing id leaves the table as it was, even when its username belongs to another row |
| RegistrationStore.UpdateSameKeys | registration_sdk/src/main/java/com/valify/registrationsdk/data/local/dao/UserRegistrationDao.kt:12-13 | Rewriting a row with its id, username and email unchanged never aborts, changes only that row, and keeps the table valid |
| RegistrationRepository.ToEntity | registration_sdk/src/main/java/com/valify/registrationsdk/data/repository/RegistrationRepositoryImpl.kt:46-54 | The row for a domain record has id 0, is not completed, and maps back to the same record |
| RegistrationRepository.DomainEntityRoundTrip | registration_sdk/src/main/java/com/valify/registrationsdk/data/repository/RegistrationRepositoryImpl.kt:46-67 | `toDomain(toEntity(r)) == r`: all five fields are copied both ways |
| RegistrationRepository.SaveRegistration | registration_sdk/src/main/java/com/valify/registrationsdk/data/repository/RegistrationRepositoryImpl.kt:16-18 | Aborts exactly when the username or email is taken. Otherwise it returns the insert's fresh id and appends one row, which maps back to the record |
| RegistrationRepository.UsernameTaken | registration_sdk/src/main/java/com/valify/registrationsdk/data/repository/RegistrationRepositoryImpl.kt:37-39 | The DAO's answer: some row has the username |
| RegistrationRepository.EmailTaken | registration_sdk/src/main/java/com/valify/registrationsdk/data/repository/RegistrationRepositoryImpl.kt:41-43 | The DAO's answer: some row has the email |
| RegistrationRepository.LatestIncompleteRegistration | registration_sdk/src/main/java/com/valify/registrationsdk/data/repository/RegistrationRepositoryImpl.kt:31-35 | Gives none exactly when every row is complete. Otherwise it gives the domain record of the incomplete row with the greatest id |
| RegistrationRepository.SavedIsLatestIncomplete | registration_sdk/src/main/java/com/valify/registrationsdk/data/repository/RegistrationRepositoryImpl.kt:16-35 | Right after a successful save, the latest incomplete registration is the one just saved |
| RegistrationRepository.UpdateSelfieImage | registration_sdk/src/main/java/com/valify/registrationsdk/data/repository/RegistrationRepositoryImpl.kt:20-28 | For one emission of the query: with no incomplete row nothing changes. Otherwise the latest incomplete row gets the path and is completed, other rows are unchanged, and the table stays valid |
| RegistrationRepository.UpdateSelfieImageIgnoresId | registration_sdk/src/main/java/com/valify/registrationsdk/data/repository/RegistrationRepositoryImpl.kt:20-28 | With incomplete rows 1 and 2, updating "registration 1" completes row 2 and leaves row 1 |
| RegistrationRepository.UpdateSelfieImageEmissions | registration_sdk/src/main/java/com/valify/registrationsdk/data/repository/RegistrationRepositoryImpl.kt:21 | Any number of re-emissions keeps the table valid |
| RegistrationRepository.UpdateSelfieImageShrinks | registration_sdk/src/main/java/com/valify/registrationsdk/data/repository/RegistrationRepositoryImpl.kt:21-27 | Each emission removes exactly the latest incomplete id from the set of incomplete ids |
| RegistrationRepository.CollectUpdates | registration_sdk/src/main/java/com/valify/registrationsdk/data/repository/RegistrationRepositoryImpl.kt:20-28 | Collecting until the query yields null completes every incomplete row with the same path, greatest id first, and leaves completed rows alone. No incomplete row remains |
| RegistrationRepository.UpdateSelfieImageEmissionsCompleteAll | registration_sdk/src/main/java/com/valify/registrationsdk/data/repository/RegistrationRepositoryImpl.kt:21-27 | Two emissions complete both incomplete rows with the same path |
| RegistrationRepository.UpdateSelfieImageById | registration_sdk/src/main/java/com/valify/registrationsdk/data/repository/RegistrationRepositoryImpl.kt:20-28 | Corrected update: only the incomplete row with the given id is changed. The table stays valid |
| RegistrationRepository.UpdateSelfieImageByIdIdempotent | registration_sdk/src/main/java/com/valify/registrationsdk/data/repository/RegistrationRepositoryImpl.kt:20-28 | Applying the corrected update twice is the same as once |
| SaveRegistrationUseCase.Invoke | registration_sdk/src/main/java/com/valify/registrationsdk/domain/use_case/SaveRegistration.kt:10-19 | A taken username throws "Username is already taken" even if the email is also taken. A free username with a taken email throws "Email is already registered". Failures leave the table unchanged. Otherwise exactly one row is appended and its fresh id is returned |
| SaveRegistrationUseCase.SecondSubmissionRejected | app/src/main/java/com/valify/domain/use_case/SaveRegistration.kt:10-19 | After a successful save, submitting the same registration again fails on the username |
| RegistrationViewModel.ErrorOf | registration_sdk/src/main/java/com/valify/registrationsdk/presentation/registration/RegistrationViewModel.kt:53-66 | A field's error is null exactly when its validator succeeds. Otherwise it is the validator's message |
| RegistrationViewModel.UpdateFormValidity | registration_sdk/src/main/java/com/valify/registrationsdk/presentation/registration/RegistrationViewModel.kt:126-134 | Only `isFormValid` changes. It is true exactly when all four values are non-blank and all four errors are null |
| RegistrationViewModel.OnFieldEvent | registration_sdk/src/main/java/com/valify/registrationsdk/presentation/registration/RegistrationViewModel.kt:50-119 | A field event stores the value as given and the validator's verdict as the error. Only that pair and `isFormValid` change |
| RegistrationViewModel.InitialStateConsistent | registration_sdk/src/main/java/com/valify/registrationsdk/presentation/registration/RegistrationState.kt:3-18 | The initial form is consistent and not valid |
| RegistrationViewModel.FieldEventKeepsConsistent | registration_sdk/src/main/java/com/valify/registrationsdk/presentation/registration/RegistrationViewModel.kt:52-119 | Every field is either unedited (empty, no error) or holds its value's verdict, and field events keep it so |
| RegistrationViewModel.FieldEventValidity | registration_sdk/src/main/java/com/valify/registrationsdk/presentation/registration/RegistrationViewModel.kt:126-134 | After a field event the form is valid exactly when each value is non-blank and passes its validator |
| RegistrationViewModel.BlankUsernameKeepsFormInvalid | registration_sdk/src/main/java/com/valify/registrationsdk/presentation/registration/RegistrationViewModel.kt:128-131 | Three spaces pass the username validator, yet the form stays invalid |
| RegistrationViewModel.FinishRegister | registration_sdk/src/main/java/com/valify/registrationsdk/presentation/registration/RegistrationViewModel.kt:149-154 | Loading is off afterwards. The one event is `NavigateToSelfie(id)` on success, or `ShowError(message ?: "An unexpected error occurred")` on an exception |
| RegistrationViewModel.Register | registration_sdk/src/main/java/com/valify/registrationsdk/presentation/registration/RegistrationViewModel.kt:136-156 | Loading is on during the call and off after it. A taken username or email shows that error and leaves the table. Otherwise it navigates with the new row's id |
| RegistrationViewModel.OnEvent | registration_sdk/src/main/java/com/valify/registrationsdk/presentation/registration/RegistrationViewModel.kt:50-124 | Field events change only the form. `Submit` always yields exactly one UI event and leaves loading off |
| RegistrationViewModel.SubmitIgnoresFormValidity | registration_sdk/src/main/java/com/valify/registrationsdk/presentation/registration/RegistrationViewModel.kt:120-122 | `Submit` gives the same table and event whether or not the form is valid |
| FaceDetection.SmileOrZero | registration_sdk/src/main/java/com/valify/registrationsdk/presentation/selfie/SmileDetectionAnalyzer.kt:63 | A missing smiling probability reads as 0 |
| SmileAnalyzer.Analyze | registration_sdk/src/main/java/com/valify/registrationsdk/presentation/selfie/SmileDetectionAnalyzer.kt:40-91 | The frame is closed exactly once, last. Frames are ignored once detected. Frames that were not counted leave the state. A counted non-smiling frame resets the counter, a smiling single face increments it, and the signal fires exactly when the counter reaches 3. The counter stays below 3 until then |
| SmileAnalyzer.QualityMessages | registration_sdk/src/main/java/com/valify/registrationsdk/presentation/selfie/SmileDetectionAnalyzer.kt:47-87 | No face, several faces, a detector failure and an exception each report their message, then close the frame |
| SmileAnalyzer.Reset | registration_sdk/src/main/java/com/valify/registrationsdk/presentation/selfie/SmileDetectionAnalyzer.kt:93-97 | Restores the initial state: flag false, counter 0, no tracking id |
| SmileAnalyzer.Run | registration_sdk/src/main/java/com/valify/registrationsdk/presentation/selfie/SmileDetectionAnalyzer.kt:66-74 | Over any frames, a valid analyzer state stays valid |
| SmileAnalyzer.RunMatchesStreak | registration_sdk/src/main/java/com/valify/registrationsdk/presentation/selfie/SmileDetectionAnalyzer.kt:63-74 | From the initial state, the analyzer has fired exactly when some prefix ends in three consecutive counted smiling frames. Until then its counter equals that streak |
| SmileAnalyzer.RunSignalsOnce | registration_sdk/src/main/java/com/valify/registrationsdk/presentation/selfie/SmileDetectionAnalyzer.kt:42-71 | In any run the smile signal is emitted at most once, exactly when the run sets the flag. Once it is set, frames change nothing |
| SmileAnalyzer.RunClosesEveryFrame | registration_sdk/src/main/java/com/valify/registrationsdk/presentation/selfie/SmileDetectionAnalyzer.kt:80-90 | A run of n frames closes exactly n frames |
| SmileAnalyzer.SmileExamples | registration_sdk/src/main/java/com/valify/registrationsdk/presentation/selfie/SmileDetectionAnalyzer.kt:63-74 | [0.9, 0.9] does not fire. [0.9, 0.9, 0.9] fires. [0.9, 0.3, 0.9, 0.9, 0.9] fires at the fifth frame and not before |
| SmileAnalyzer.ResetRearms | registration_sdk/src/main/java/com/valify/registrationsdk/presentation/selfie/SmileDetectionAnalyzer.kt:93-97 | After `reset`, three smiling frames fire the signal exactly once, whatever came before |
| CaptureGuard.NormalizeRotation | registration_sdk/src/main/java/com/valify/registrationsdk/presentation/selfie/SelfieScreen.kt:383-388 | Result in {0, 90, 180, 270}. 90, 180 and 270 are kept, and anything else becomes 0 |
| CaptureGuard.NormalizeRotationIdempotent | registration_sdk/src/main/java/com/valify/registrationsdk/presentation/selfie/SelfieScreen.kt:383-388 | Normalising twice is normalising once |
| CaptureGuard.Handle | registration_sdk/src/main/java/com/valify/registrationsdk/presentation/selfie/SelfieScreen.kt:365-427 | Every analysis frame is closed once, first. A capture is requested exactly when the frame has an image, no capture is outstanding, and the first face's probability is present and above 0.8. Frames are dropped while capturing. Every capture outcome clears `isCapturing`. Success closes the captured image once and delivers it mirrored with a normalised rotation |
| CaptureGuard.RunKeepsGuard | registration_sdk/src/main/java/com/valify/registrationsdk/presentation/selfie/SelfieScreen.kt:363-427 | Over any run the camera can deliver, at most one capture is outstanding, and the frames closed equal the frames received |
| CaptureGuard.SecondSmileDropped | registration_sdk/src/main/java/com/valify/registrationsdk/presentation/selfie/SelfieScreen.kt:367-377 | A smiling frame that arrives while a capture is outstanding is only closed |
| CaptureGuard.FirstFaceOnly | registration_sdk/src/main/java/com/valify/registrationsdk/presentation/selfie/SelfieScreen.kt:372-373 | Only the first face counts, and a face with no probability never triggers |
| SelfieStore.FileName | registration_sdk/src/main/java/com/valify/registrationsdk/data/repository/SelfieRepositoryImpl.kt:19-23 | The name is "selfie_", the decimal id, then ".jpg" |
| SelfieStore.FileNameInjective | registration_sdk/src/main/java/com/valify/registrationsdk/data/repository/SelfieRepositoryImpl.kt:19-23 | Distinct ids give distinct file names |
| SelfieStore.SaveSelfie | registration_sdk/src/main/java/com/valify/registrationsdk/data/repository/SelfieRepositoryImpl.kt:22-29 | A successful write stores the JPEG under the id's name and returns its URI. A failed write returns the exception. Other files are untouched |
| SelfieStore.GetSelfie | registration_sdk/src/main/java/com/valify/registrationsdk/data/repository/SelfieRepositoryImpl.kt:31-38 | Gives the URI exactly when the file exists, and otherwise "Selfie not found" |
| SelfieStore.DeleteSelfie | registration_sdk/src/main/java/com/valify/registrationsdk/data/repository/SelfieRepositoryImpl.kt:40-46 | Fails with "Failed to delete selfie", leaving the file, exactly when the file exists and the delete fails. Otherwise the file is gone |
| SelfieStore.GetAfterSave | registration_sdk/src/main/java/com/valify/registrationsdk/data/repository/SelfieRepositoryImpl.kt:22-38 | Reading after a successful save gives the URI the save returned |
| SelfieStore.GetAfterDelete | registration_sdk/src/main/java/com/valify/registrationsdk/data/repository/SelfieRepositoryImpl.kt:31-46 | Reading after a successful delete gives "Selfie not found" |
| SelfieStore.DeleteIdempotent | registration_sdk/src/main/java/com/valify/registrationsdk/data/repository/SelfieRepositoryImpl.kt:40-46 | A second delete succeeds and changes nothing |
| SelfieStore.OtherSelfiesUntouched | registration_sdk/src/main/java/com/valify/registrationsdk/data/repository/SelfieRepositoryImpl.kt:19-46 | Saving or deleting id A never changes what reading id B gives |
| SelfieStore.SaveOverwrites | registration_sdk/src/main/java/com/valify/registrationsdk/data/repository/SelfieRepositoryImpl.kt:24-27 | Two saves leave what the second alone would |
| SelfieViewModel.LoadResult | registration_sdk/src/main/java/com/valify/registrationsdk/presentation/selfie/SelfieViewModel.kt:127-148 | Found: shows the image with no error. "Selfie not found": only loading turns off. Any other failure sets "Failed to load saved photo: ..." |
| SelfieViewModel.Load | registration_sdk/src/main/java/com/valify/registrationsdk/presentation/selfie/SelfieViewModel.kt:124-149 | Does nothing for id 0. Otherwise it shows the stored selfie if there is one, and only stops loading if there is none |
| SelfieViewModel.LoadIdempotent | registration_sdk/src/main/java/com/valify/registrationsdk/presentation/selfie/SelfieViewModel.kt:124-149 | Loading twice is loading once |
| SelfieViewModel.SetRegistrationId | registration_sdk/src/main/java/com/valify/registrationsdk/presentation/selfie/SelfieViewModel.kt:29-57 | The current id is a no-op. A new id clears the five fields, then shows that id's stored selfie if there is one |
| SelfieViewModel.SetRegistrationIdLoadsOnce | registration_sdk/src/main/java/com/valify/registrationsdk/presentation/selfie/SelfieViewModel.kt:29-57 | The setter's extra load is overwritten: the result is one clear and one load, in either order of the two queued loads |
| SelfieViewModel.Init | registration_sdk/src/main/java/com/valify/registrationsdk/presentation/selfie/SelfieViewModel.kt:38-44 | A saved id is adopted, and its stored selfie is shown if there is one |
| SelfieViewModel.OnEvent | registration_sdk/src/main/java/com/valify/registrationsdk/presentation/selfie/SelfieViewModel.kt:60-122 | Every handler ends with loading off. Capture deletes and then saves; on success it shows the new selfie, and on failure it sets "Failed to save photo: ...". A successful retake clears the image. Save-and-continue navigates with the current id exactly when an image is shown, and otherwise asks for a photo |
| SelfieViewModel.CaptureIgnoresDeleteResult | registration_sdk/src/main/java/com/valify/registrationsdk/presentation/selfie/SelfieViewModel.kt:62-67 | The outcome of the pre-save delete does not matter |
| SelfieViewModel.RetakeThenLoadFindsNothing | registration_sdk/src/main/java/com/valify/registrationsdk/presentation/selfie/SelfieViewModel.kt:84-95 | After a successful retake no image is shown, and a reload finds none |
| SelfieViewModel.CaptureThenLoad | registration_sdk/src/main/java/com/valify/registrationsdk/presentation/selfie/SelfieViewModel.kt:62-75 | After a successful capture a reload shows the same state |
| SelfieViewModel.FailedCaptureLeavesStaleImage | registration_sdk/src/main/java/com/valify/registrationsdk/presentation/selfie/SelfieViewModel.kt:62-81 | As written, a failed save after the delete keeps showing a selfie that is no longer stored, and save-and-continue then navigates |
| SelfieViewModel.OnEventCorrected | registration_sdk/src/main/java/com/valify/registrationsdk/presentation/selfie/SelfieViewModel.kt:76-81 | Corrected capture failure: also drops the image. Every other step is as written |
| SelfieViewModel.CorrectedKeepsInSync | registration_sdk/src/main/java/com/valify/registrationsdk/presentation/selfie/SelfieViewModel.kt:104-112 | With the correction, a shown image is always the current registration's stored selfie, and save-and-continue navigates only when one is stored |
| SelfieViewModel.SetRegistrationIdInSync | registration_sdk/src/main/java/com/valify/registrationsdk/presentation/selfie/SelfieViewModel.kt:46-57 | Switching registrations keeps the shown image in step with the store |
| CaptureSelfieUseCase.Invoke | registration_sdk/src/main/java/com/valify/registrationsdk/domain/use_case/CaptureSelfieUseCase.kt:16-29 | Emits `Processing` and then exactly one terminal result. A camera failure gives `Error(message ?: "Failed to capture selfie")` and stores nothing. `Success` carries the URI under which the photo can be read back |
| CaptureSelfieUseCase.SuccessMatchesStore | registration_sdk/src/main/java/com/valify/registrationsdk/domain/use_case/CaptureSelfieUseCase.kt:19-29 | Starting with no selfie, success is reported exactly when one is then stored |
| AppSelfieCapture.ErrorMessage | app/src/main/java/com/valify/presentation/selfie/SelfieViewModel.kt:104-113 | Capture exception: camera-in-use message. Security exception: permission message. Anything else: "Failed to process photo: " and the message |
| AppSelfieCapture.CapturePhoto | app/src/main/java/com/valify/presentation/selfie/SelfieViewModel.kt:57-115 | Loading is off on every path. The repository is called, with the id and path, exactly when a photo was taken and its first face's probability (missing read as 0) is at least 0.5. No face and no smile each set their message and try to delete the file, which is gone exactly when the delete works. Success completes the registration with the photo's `file://` URI |
| AppSelfieCapture.FileUriOf | app/src/main/java/com/valify/presentation/selfie/SelfieViewModel.kt:102 | The stored URI is "file://" followed by the photo's path, and the path can be cut back out of it |
| AppSelfieCapture.DecisionExamples | app/src/main/java/com/valify/presentation/selfie/SelfieViewModel.kt:82-92 | Exactly 0.5 is kept. 0.49 and a missing probability are rejected. Only the first face counts |
| AppSelfieCapture.PhotoFileFate | app/src/main/java/com/valify/presentation/selfie/SelfieViewModel.kt:73-92 | Once faces are detected, the photo file survives exactly when it is accepted or its delete fails |
| ErrorUtils.FieldCode | registration_sdk/src/main/java/com/valify/registrationsdk/util/ErrorUtils.kt:14-20 | The names email, phone, username and password, in any letter case, give "1" to "4" in that order. Every other name gives "0" |
| ErrorUtils.FieldCodeIgnoresCase | registration_sdk/src/main/java/com/valify/registrationsdk/util/ErrorUtils.kt:14 | A field name and its lower-case form get the same code |
| ErrorUtils.FieldCodes | registration_sdk/src/main/java/com/valify/registrationsdk/util/ErrorUtils.kt:14-20 | email, phone, username and password map to 1 to 4 in any case; other names map to 0 |
| ErrorUtils.ValidationCodeRange | registration_sdk/src/main/java/com/valify/registrationsdk/util/ErrorUtils.kt:4-11 | A validation code is one of E000 to E004, never E005 or E006 |
| ErrorUtils.CodesSeparateKinds | registration_sdk/src/main/java/com/valify/registrationsdk/util/ErrorUtils.kt:3-11 | Equal codes mean the same kind of error |
| ErrorUtils.DistinctFieldsDistinctCodes | registration_sdk/src/main/java/com/valify/registrationsdk/util/ErrorUtils.kt:14-20 | Distinct known fields get distinct validation codes |
| ErrorUtils.UserFriendlyMessage | registration_sdk/src/main/java/com/valify/registrationsdk/util/ErrorUtils.kt:29-35 | Validation messages are returned as they are. Camera and storage messages are framed by a fixed prefix and suffix |
| ErrorUtils.UserFriendlyMessageRecoverable | registration_sdk/src/main/java/com/valify/registrationsdk/util/ErrorUtils.kt:29-35 | The framed message can be cut back out of the wording |
| ErrorUtils.ToValifyError | registration_sdk/src/main/java/com/valify/registrationsdk/util/ErrorUtils.kt:37-44 | Security becomes "Camera permission denied" and illegal state becomes "Camera not available", both camera errors. Anything else is a storage error "An unexpected error occurred: ..." |

## Left out

- Compose screens, text fields, progress indicator and themes: rendering and permission plumbing with nothing to decide.
- CameraX and ML Kit internals, such as frame-to-bitmap conversion, use-case binding and detector options: foreign code. The detector, the camera and capture are oracles.
- `ImageUtils` (scaling, matrix transforms, JPEG encoding, bitmap recycling): floating-point image processing. The model records only the rotation and mirror flag passed in, and takes the encoded JPEG bytes as given.
- The vendor SDK hand-off, every `MainActivity`, the SDK singletons and config holders, Hilt modules, Room database classes, navigation and gradle files: wiring or foreign calls.
- `DeviceUtils` and `GetRegistration`: a platform id, and a query the repository does not implement. The registration view model's `init`, which collects that query, is left out with them.
- Coroutine and Flow mechanics: each launched block is one atomic step. The one exception is the modelled re-emission of the latest-incomplete query, which is counted as explicit emissions.
- The app's `CoroutineExceptionHandler` in `capturePhoto`: it is reached only by throwables that are not `Exception`s, which the oracles do not produce.
- Exceptions thrown outside the caught regions, such as building the input image in `setupCamera`: the analyzer runs on the main executor, so such an exception reaches the main looper and ends the process, and the frame is never closed. The model has no process crash.
- Character classes are ASCII: Kotlin's Unicode `isDigit`, `isLetter`, `isUpperCase`, `isLowerCase`, `isWhitespace` and `lowercase` are approximated on ASCII. String lengths are counted in UTF-16 units, as Kotlin counts them.
- SelfieStore.FileName: always writes ASCII digits. The source formats the id with `String.format` under the default locale, which writes other digits in some locales, for example Arabic-Indic digits under `ar-EG`. The model covers locales whose digits are ASCII.
- RegistrationRepository.UpdateSelfieImageEmissions: the model counts emissions, but the source collects a Room query flow, which never completes. After the last incomplete row is completed the query yields null, and the collector waits forever, so `updateSelfieImage` never returns to `CaptureSelfie`. `CollectUpdates` states the table at that point. The non-return itself is not modelled.
- CaptureSelfieUseCase.Invoke: every failure ends in an `Error` emission, which holds for `Exception`s only. `saveSelfie` wraps any throwable in its `Result` (`SelfieRepositoryImpl.kt:22`), and `getOrThrow` rethrows it, but the use case catches only `Exception` (`CaptureSelfieUseCase.kt:27`). An `OutOfMemoryError` while encoding the bitmap therefore escapes the flow, and no terminal result is emitted. The model does not represent non-`Exception` throwables.
- AppSelfieCapture.CapturePhoto: the path where the repository call returns assumes the app repository's `updateSelfieImage` returns. The app repository's implementation is not part of this model, and a collect like the SDK's would never return.
- Float constants: 0.8f and 0.5f are modelled as the reals 0.8 and 0.5.
- RegistrationRepository.ToEntity: the source builds the row without a device id, which the row type requires. The model stores the empty string there.
- RegistrationViewModel.Register: the source builds the domain record with `phone` and `deviceId` arguments, which the record does not declare. The model passes the phone number as `phoneNumber` and drops the device id.
- The app's copy of the registration entity: the same schema without the device id, so it is modelled once.
- The app's `SaveRegistration`: the same code as the SDK's, modelled once as `SaveRegistrationUseCase.Invoke`.
- The `OutOfMemoryError` branch of `toValifyError`: it can never match an `Exception`.
- SmileAnalyzer.Analyze: `lastTrackingId` is only ever reset, never read, so it is carried through unchanged.
- The RegistrationScreen's reads of `state.isValid` and `state.error`, and the app selfie screen's call to `startSmileDetection`: they name members that do not exist.

## Findings

| source | as written | input that shows it | evidently intended | confidence | as-written member | corrected member |
|---|---|---|---|---|---|---|
| registration_sdk/src/main/java/com/valify/registrationsdk/data/repository/RegistrationRepositoryImpl.kt:20-28 | `updateSelfieImage(registrationId, path)` never reads `registrationId`. It completes whichever incomplete row has the greatest id, and again on every re-emission of the query | incomplete rows with ids 1 and 2; update for id 1 | the row with id `registrationId` gets the selfie and is completed | not executed; high | RegistrationRepository.UpdateSelfieImageIgnoresId | RegistrationRepository.UpdateSelfieImageById |
| registration_sdk/src/main/java/com/valify/registrationsdk/presentation/selfie/SelfieViewModel.kt:62-81 | capture deletes the stored selfie, then saves. When the save fails, `savedImage` still names the deleted file | registration 5 with a stored and shown selfie; capture where the delete succeeds and the write throws; save-and-continue then navigates with no selfie stored | a shown image is always a stored selfie, which is what save-and-continue relies on | not executed; medium | SelfieViewModel.FailedCaptureLeavesStaleImage | SelfieViewModel.OnEventCorrected |

=== FILE: app_selfie_capture.dfy ===
/**
 * The app's selfie screen logic, `capturePhoto`: take a photo into a
 * time-stamped file, run face detection on it, and either reject it (and
 * try to delete the file) or hand its path to the registration repository.
 *
 * The camera, the detector and the repository call are oracles: each either
 * returns or throws. Whether `File.delete` succeeds is an oracle too; its
 * result is ignored by the source. The clock reading that names the file is
 * a parameter.
 * The coroutine runs to completion in one step.
 */
module AppSelfieCapture {
  import opened Wrappers
  import opened Text
  import opened Exceptions
  import opened FaceDetection

  datatype AppSelfieState = AppSelfieState(
    registrationId: int,
    isLoading: bool,
    error: Option<string>,
    registrationComplete: bool,
    capturedImageUri: Option<string>)  // `Uri.fromFile(photoFile)`, as a string

  /** The smile bar for a capture to be kept: inclusive. */
  const MinSmileProbability: real := 0.5

  const NoFaceMessage := "No face detected. Please look at the camera and try again."
  const NoSmileMessage := "Please smile and try again!"

  /** The oracles' answers for one capture. */
  datatype Oracles = Oracles(
    photo: Outcome<()>,          // takePicture into the file
    detection: Outcome<seq<Face>>, // reading the file back and detecting faces
    update: Outcome<()>,         // captureSelfie(registrationId, path)
    deleteSucceeds: bool)        // photoFile.delete() on a rejected photo

  datatype SelfieCall = SelfieCall(registrationId: int, imagePath: string)

  /** What one run of `capturePhoto` leaves behind. */
  datatype CaptureRun = CaptureRun(state: AppSelfieState, files: set<string>, call: Option<SelfieCall>)

  /** `"selfie_${System.currentTimeMillis()}.jpg"` in the files directory. */
  function PhotoPath(filesDir: string, millis: int): string {
    filesDir + "/selfie_" + IntToString(millis) + ".jpg"
  }

  /** `Uri.fromFile` of an absolute path: the `file` scheme, then the path. */
  function FileUriOf(path: string): (u: string)
    ensures |u| == |path| + 7 && u[..7] == "file://" && u[7..] == path
  {
    "file://" + path
  }

  /** What a rejected photo's `delete()` leaves: the file is gone only when the delete worked. */
  function Discard(files: set<string>, path: string, deleteSucceeds: bool): set<string> {
    if deleteSucceeds then files - {path} else files
  }

  /** The `catch` block's message for each kind of exception. */
  function ErrorMessage(e: Exception): (m: string)
    ensures e.kind == ImageCapture ==> m == "Failed to capture photo: Camera may be in use"
    ensures e.kind == Security ==> m == "Permission denied to access camera or storage"
    ensures e.kind != ImageCapture && e.kind != Security ==> m == "Failed to process photo: " + Show(e.message)
  {
    match e.kind
    case ImageCapture => "Failed to capture photo: Camera may be in use"
    case Security => "Permission denied to access camera or storage"
    case _ => "Failed to process photo: " + Show(e.message)
  }

  /** The accept/reject decision on the detected faces: the first face's probability, missing read as 0. */
  predicate Accepts(faces: seq<Face>) {
    |faces| > 0 && SmileOrZero(faces[0]) >= MinSmileProbability
  }

  function Failed(s: AppSelfieState, message: string): AppSelfieState {
    s.(isLoading := false, error := Some(message))
  }

  /** `capturePhoto`. */
  function CapturePhoto(s: AppSelfieState, files: set<string>, filesDir: string, millis: int, o: Oracles): (r: CaptureRun)
    ensures !r.state.isLoading && r.state.registrationId == s.registrationId
    ensures r.call.Some? <==> o.photo.Returned? && o.detection.Returned? && Accepts(o.detection.value)
    ensures r.call.Some? ==> r.call.value == SelfieCall(s.registrationId, PhotoPath(filesDir, millis))
    ensures o.photo.Threw? ==> r.files == files && r.state == Failed(s, ErrorMessage(o.photo.exception))
    ensures o.photo.Returned? && o.detection.Threw? ==>
      r.files == files + {PhotoPath(filesDir, millis)} && r.state == Failed(s, ErrorMessage(o.detection.exception))
    ensures o.photo.Returned? && o.detection.Returned? && !Accepts(o.detection.value) ==>
      && (o.deleteSucceeds ==> r.files == files - {PhotoPath(filesDir, millis)})
      && (!o.deleteSucceeds ==> r.files == files + {PhotoPath(filesDir, millis)})
    ensures o.photo.Returned? && o.detection.Returned? && |o.detection.value| == 0 ==>
      r.state == Failed(s, NoFaceMessage)
    ensures o.photo.Returned? && o.detection.Returned? && |o.detection.value| > 0 && !Accepts(o.detection.value) ==>
      r.state == Failed(s, NoSmileMessage)
    ensures r.call.Some? && o.update.Returned? ==>
      && r.files == files + {PhotoPath(filesDir, millis)}
      && r.state == s.(isLoading := false, registrationComplete := true, error := None,
                       capturedImageUri := Some(FileUriOf(PhotoPath(filesDir, millis))))
    ensures r.call.Some? && o.update.Threw? ==> r.state == Failed(s, ErrorMessage(o.update.exception))
    ensures r.state.registrationComplete ==> s.registrationComplete || (r.call.Some? && o.update.Returned?)
  {
    var started := s.(isLoading := true, error := None);
    var path := PhotoPath(filesDir, millis);
    match o.photo
    case Threw(e) => CaptureRun(Failed(started, ErrorMessage(e)), files, None)
    case Returned(_) =>
      var withPhoto := files + {path};
      match o.detection
      case Threw(e) => CaptureRun(Failed(started, ErrorMessage(e)), withPhoto, None)
      case Returned(faces) =>
        if |faces| == 0 then CaptureRun(Failed(started, NoFaceMessage), Discard(withPhoto, path, o.deleteSucceeds), None)
        else if SmileOrZero(faces[0]) < MinSmileProbability then
          CaptureRun(Failed(started, NoSmileMessage), Discard(withPhoto, path, o.deleteSucceeds), None)
        else
          var call := Some(SelfieCall(s.registrationId, path));
          match o.update
          case Threw(e) => CaptureRun(Failed(started, ErrorMessage(e)), withPhoto, call)
          case Returned(_) =>
            CaptureRun(started.(isLoading := false, registrationComplete := true, error := None, capturedImageUri := Some(FileUriOf(path))),
                       withPhoto, call)
  }

  /**
   * The bar is inclusive and only the first face counts: exactly 0.5 is
   * kept, a face without a probability is rejected, and a smiling second
   * face does not help.
   */
  lemma DecisionExamples()
    ensures Accepts([Face(Some(0.5))])
    ensures !Accepts([Face(Some(0.49))])
    ensures !Accepts([Face(None)])
    ensures !Accepts([Face(Some(0.1)), Face(Some(0.99))])
    ensures Accepts([Face(Some(0.7)), Face(None)])
  {
  }

  /**
   * An accepted photo always survives the call. A rejected one is gone
   * exactly when its delete worked: a failed delete leaves it behind.
   */
  lemma PhotoFileFate(s: AppSelfieState, files: set<string>, filesDir: string, millis: int, o: Oracles)
    requires o.photo.Returned? && o.detection.Returned?
    ensures var r := CapturePhoto(s, files, filesDir, millis, o);
      PhotoPath(filesDir, millis) in r.files <==> Accepts(o.detection.value) || !o.deleteSucceeds
  {
  }
}

=== FILE: capture_guard.dfy ===
/**
 * The analyzer that the SDK selfie screen's `setupCamera` installs: an
 * `isCapturing` re-entrancy guard around an automatic capture, the
 * analysis-frame close discipline, and the rotation normaliser applied to
 * the captured image.
 *
 * Each analysis frame together with its detector callback is one atomic
 * step, as is each capture callback. `pendingCaptures` is the camera's side
 * of the protocol: the `takePicture` requests whose callback has not yet
 * run. The camera calls back once per request, so a callback step needs a
 * pending request.
 */
module CaptureGuard {
  import opened Wrappers
  import opened FaceDetection
  import opened Seqs

  const SmileThreshold: real := 0.8

  datatype GuardState = GuardState(isCapturing: bool, pendingCaptures: nat)

  const InitialGuard := GuardState(false, 0)

  /** `isCapturing` is set exactly while one capture is outstanding. */
  ghost predicate Valid(s: GuardState) {
    s.pendingCaptures == (if s.isCapturing then 1 else 0)
  }

  datatype CameraEvent =
    | AnalysisFrame(hasImage: bool, detection: Detection)
    | CaptureSucceeded(rotationDegrees: int, processed: bool) // processed: decoding and transforming did not throw
    | CaptureFailed

  datatype Effect =
    | CloseFrame                                   // the analysis frame's imageProxy.close()
    | TakePicture                                  // imageCapture.takePicture(...)
    | DeliverSelfie(rotation: int, flipHorizontal: bool) // onSmileDetected with the transformed image
    | CloseCapturedImage                           // the captured image's close() in finally

  datatype Step = Step(state: GuardState, effects: seq<Effect>)

  /** The `when` on the captured image's rotation: the three right angles are kept, anything else is 0. */
  function NormalizeRotation(degrees: int): (r: int)
    ensures r == 0 || r == 90 || r == 180 || r == 270
    ensures degrees == 90 || degrees == 180 || degrees == 270 ==> r == degrees
    ensures r != degrees ==> r == 0
  {
    match degrees
    case 90 => 90
    case 270 => 270
    case 180 => 180
    case _ => 0
  }

  lemma NormalizeRotationIdempotent(degrees: int)
    ensures NormalizeRotation(NormalizeRotation(degrees)) == NormalizeRotation(degrees)
  {
  }

  /** The trigger: the first face, if any, has a probability and it is above the threshold. */
  predicate TriggersCapture(faces: seq<Face>) {
    |faces| > 0 && faces[0].smilingProbability.Some? && faces[0].smilingProbability.value > SmileThreshold
  }

  /** A step the camera can deliver: callbacks only for an outstanding request. */
  predicate CanDeliver(s: GuardState, e: CameraEvent) {
    e.AnalysisFrame? || s.pendingCaptures > 0
  }

  function Handle(s: GuardState, e: CameraEvent): (r: Step)
    requires CanDeliver(s, e)
    ensures Valid(s) ==> Valid(r.state)
    ensures e.AnalysisFrame? ==> Count(r.effects, CloseFrame) == 1 && r.effects[0] == CloseFrame
    ensures e.AnalysisFrame? && s.isCapturing ==> r == Step(s, [CloseFrame])
    ensures TakePicture in r.effects <==>
      e.AnalysisFrame? && e.hasImage && !s.isCapturing && e.detection.Faces? && TriggersCapture(e.detection.faces)
    ensures TakePicture in r.effects ==> r.effects == [CloseFrame, TakePicture] && r.state.isCapturing
    ensures e.AnalysisFrame? && TakePicture !in r.effects ==> r == Step(s, [CloseFrame])
    ensures !e.AnalysisFrame? ==> !r.state.isCapturing && r.state.pendingCaptures == s.pendingCaptures - 1
    ensures e.CaptureSucceeded? ==> Count(r.effects, CloseCapturedImage) == 1 && r.effects[|r.effects| - 1] == CloseCapturedImage
    ensures e.CaptureFailed? ==> r.effects == []
    ensures forall d: int, flip: bool :: DeliverSelfie(d, flip) in r.effects ==>
      e.CaptureSucceeded? && e.processed && flip && d == NormalizeRotation(e.rotationDegrees)
    ensures e.CaptureSucceeded? && e.processed ==> DeliverSelfie(NormalizeRotation(e.rotationDegrees), true) in r.effects
  {
    match e
    case AnalysisFrame(hasImage, detection) =>
      if hasImage && !s.isCapturing && detection.Faces? && TriggersCapture(detection.faces) then
        Step(GuardState(true, s.pendingCaptures + 1), [CloseFrame, TakePicture])
      else Step(s, [CloseFrame])
    case CaptureSucceeded(rotation, processed) =>
      var s' := GuardState(false, s.pendingCaptures - 1);
      if processed then Step(s', [DeliverSelfie(NormalizeRotation(rotation), true), CloseCapturedImage])
      else Step(s', [CloseCapturedImage])
    case CaptureFailed =>
      Step(GuardState(false, s.pendingCaptures - 1), [])
  }

  /** The camera can deliver every event of the sequence, in order, from `s`. */
  ghost predicate Deliverable(s: GuardState, events: seq<CameraEvent>)
    decreases |events|, 0
  {
    events == [] ||
      (var p := events[..|events| - 1];
       Deliverable(s, p) && CanDeliver(Run(s, p).state, events[|events| - 1]))
  }

  function Run(s: GuardState, events: seq<CameraEvent>): (r: Step)
    requires Deliverable(s, events)
    decreases |events|, 1
  {
    if events == [] then Step(s, [])
    else
      var before := Run(s, events[..|events| - 1]);
      var step := Handle(before.state, events[|events| - 1]);
      Step(step.state, before.effects + step.effects)
  }

  /** How many of the events are analysis frames. */
  function CountFrames(events: seq<CameraEvent>): (n: nat)
    ensures n <= |events|
    ensures n == 0 <==> forall i :: 0 <= i < |events| ==> !events[i].AnalysisFrame?
    ensures n == |events| <==> forall i :: 0 <= i < |events| ==> events[i].AnalysisFrame?
  {
    if events == [] then 0
    else CountFrames(events[..|events| - 1]) + (if events[|events| - 1].AnalysisFrame? then 1 else 0)
  }

  /**
   * Over any deliverable run from a valid state: the guard stays valid, so
   * at most one capture is ever outstanding, and every analysis frame is
   * closed exactly once.
   */
  lemma {:induction false} RunKeepsGuard(s: GuardState, events: seq<CameraEvent>)
    requires Valid(s) && Deliverable(s, events)
    ensures Valid(Run(s, events).state) && Run(s, events).state.pendingCaptures <= 1
    ensures Count(Run(s, events).effects, CloseFrame) == CountFrames(events)
    decreases |events|
  {
    if events != [] {
      var p := events[..|events| - 1];
      RunKeepsGuard(s, p);
      var before := Run(s, p);
      var step := Handle(before.state, events[|events| - 1]);
      CountAppend(before.effects, step.effects, CloseFrame);
    }
  }

  /** While a capture is outstanding, a smiling frame is dropped: it is closed and nothing else happens. */
  lemma SecondSmileDropped(p: real)
    requires p > SmileThreshold
    ensures var s := Handle(InitialGuard, AnalysisFrame(true, Faces([Face(Some(p))]))).state;
      s.isCapturing && Handle(s, AnalysisFrame(true, Faces([Face(Some(p))]))) == Step(s, [CloseFrame])
  {
  }

  /** Only the first face counts, and a face without a probability never triggers. */
  lemma FirstFaceOnly(p: real)
    requires p > SmileThreshold
    ensures Handle(InitialGuard, AnalysisFrame(true, Faces([Face(None), Face(Some(p))]))) == Step(InitialGuard, [CloseFrame])
    ensures TakePicture in Handle(InitialGuard, AnalysisFrame(true, Faces([Face(Some(p)), Face(None)]))).effects
  {
  }
}

=== FILE: capture_selfie_use_case.dfy ===
/**
 * The SDK's `CaptureSelfieUseCase`: a flow that announces processing, takes
 * a photo from the camera, stores it as the registration's selfie, and ends
 * with exactly one terminal result.
 *
 * The camera is an oracle: the bitmap's encoded contents, or the exception
 * its `Result` holds. The flow is collected to completion in one step.
 */
module CaptureSelfieUseCase {
  import opened Wrappers
  import opened Exceptions
  import opened SelfieStore

  datatype CaptureResult = Processing | Success(uri: Uri) | Error(message: string)

  datatype Captured = Captured(files: Files, emissions: seq<CaptureResult>)

  predicate Terminal(c: CaptureResult) {
    !c.Processing?
  }

  function ErrorText(e: Exception): string {
    e.message.GetOr("Failed to capture selfie")
  }

  /** `invoke(registrationId)`, collected. */
  function Invoke(fs: Files, registrationId: int, camera: Outcome<Contents>, failure: Option<WriteFailure>): (r: Captured)
    ensures |r.emissions| == 2 && r.emissions[0] == Processing && Terminal(r.emissions[1])
    ensures camera.Threw? ==> r.files == fs && r.emissions[1] == Error(ErrorText(camera.exception))
    ensures r.emissions[1].Success? <==> camera.Returned? && failure.None?
    ensures r.emissions[1].Success? ==>
      && r.emissions[1].uri == FileUri(FileName(registrationId))
      && GetSelfie(r.files, registrationId) == Returned(r.emissions[1].uri)
      && r.files.entries[FileName(registrationId)] == camera.value
    ensures camera.Returned? && failure.Some? ==> r.emissions[1] == Error(ErrorText(failure.value.exception))
  {
    match camera
    case Threw(e) => Captured(fs, [Processing, Error(ErrorText(e))])
    case Returned(bitmap) =>
      var (fs', saved) := SaveSelfie(fs, registrationId, bitmap, failure);
      match saved
      case Returned(uri) => Captured(fs', [Processing, Success(uri)])
      case Threw(e) => Captured(fs', [Processing, Error(ErrorText(e))])
  }

  /** The terminal result and the store agree: success exactly when the selfie can be read back. */
  lemma SuccessMatchesStore(fs: Files, registrationId: int, camera: Outcome<Contents>, failure: Option<WriteFailure>)
    requires FileName(registrationId) !in fs.entries
    requires failure.Some? ==> failure.value.leftover.None?
    ensures var r := Invoke(fs, registrationId, camera, failure);
      r.emissions[1].Success? <==> GetSelfie(r.files, registrationId).Returned?
  {
  }
}

=== FILE: error_utils.dfy ===
/**
 * The SDK's error taxonomy: coded errors for validation, camera and storage
 * failures, the user-facing wording of each, and the mapping from caught
 * exceptions.
 */
module ErrorUtils {
  import opened Wrappers
  import opened Text
  import opened Exceptions

  datatype ValifyError =
    | ValidationError(field: string, message: string)
    | CameraError(message: string)
    | StorageError(message: string)
  {
    /** The error's code: "E00" and the field's code for validation errors. */
    function Code(): string {
      match this
      case ValidationError(f, _) => "E00" + FieldCode(f)
      case CameraError(_) => "E005"
      case StorageError(_) => "E006"
    }
  }

  /** `getFieldCode`: the field name, lower-cased, picks one of five codes. */
  function FieldCode(field: string): (code: string)
    ensures code in {"0", "1", "2", "3", "4"}
    ensures Lower(field) == "email" ==> code == "1"
    ensures Lower(field) == "phone" ==> code == "2"
    ensures Lower(field) == "username" ==> code == "3"
    ensures Lower(field) == "password" ==> code == "4"
    ensures Lower(field) !in {"email", "phone", "username", "password"} ==> code == "0"
  {
    match Lower(field)
    case "email" => "1"
    case "phone" => "2"
    case "username" => "3"
    case "password" => "4"
    case _ => "0"
  }

  lemma LowerIdempotent(s: string)
    ensures Lower(Lower(s)) == Lower(s)
  {
    assert forall i :: 0 <= i < |s| ==> Lower(Lower(s))[i] == Lower(s)[i];
  }

  /** The field code ignores case: a name and its lower-case form get the same code. */
  lemma FieldCodeIgnoresCase(field: string)
    ensures FieldCode(Lower(field)) == FieldCode(field)
  {
    LowerIdempotent(field);
  }

  /** The four known field names, in any case, and what anything else gets. */
  lemma FieldCodes()
    ensures FieldCode("email") == "1" && FieldCode("phone") == "2"
    ensures FieldCode("username") == "3" && FieldCode("password") == "4"
    ensures FieldCode("Email") == "1" && FieldCode("PASSWORD") == "4"
    ensures FieldCode("name") == "0"
  {
    assert Lower("Email") == "email";
    assert Lower("PASSWORD") == "password";
    assert Lower("email") == "email";
    assert Lower("phone") == "phone";
    assert Lower("username") == "username";
    assert Lower("password") == "password";
    assert Lower("name") == "name";
  }

  /** A validation code is one of E000 to E004, so never a camera or storage code. */
  lemma ValidationCodeRange(field: string, message: string)
    ensures ValidationError(field, message).Code() in {"E000", "E001", "E002", "E003", "E004"}
    ensures ValidationError(field, message).Code() != CameraError(message).Code()
    ensures ValidationError(field, message).Code() != StorageError(message).Code()
  {
    var c := FieldCode(field);
    assert c == "0" || c == "1" || c == "2" || c == "3" || c == "4";
    assert ValidationError(field, message).Code() == "E00" + c;
    assert ("E00" + c)[3] == c[0];
    if c == "0" { assert "E00" + c == "E000"; }
    else if c == "1" { assert "E00" + c == "E001"; }
    else if c == "2" { assert "E00" + c == "E002"; }
    else if c == "3" { assert "E00" + c == "E003"; }
    else { assert "E00" + c == "E004"; }
  }

  /** The three kinds of error never share a code. */
  lemma CodesSeparateKinds(a: ValifyError, b: ValifyError)
    requires a.Code() == b.Code()
    ensures a.ValidationError? <==> b.ValidationError?
    ensures a.CameraError? <==> b.CameraError?
  {
    if a.ValidationError? { ValidationCodeRange(a.field, a.message); }
    if b.ValidationError? { ValidationCodeRange(b.field, b.message); }
  }

  /** Fields whose lower-case names are distinct known names get distinct codes. */
  lemma DistinctFieldsDistinctCodes(f: string, g: string)
    requires Lower(f) in {"email", "phone", "username", "password"}
    requires Lower(g) in {"email", "phone", "username", "password"}
    requires Lower(f) != Lower(g)
    ensures ValidationError(f, "").Code() != ValidationError(g, "").Code()
  {
    assert FieldCode(f) != FieldCode(g);
    assert ("E00" + FieldCode(f))[3] == FieldCode(f)[0];
    assert ("E00" + FieldCode(g))[3] == FieldCode(g)[0];
  }

  const CameraPrefix := "Camera error: "
  const CameraSuffix := ". Please check camera permissions and try again."
  const StoragePrefix := "Storage error: "
  const StorageSuffix := ". Please check available space and permissions."

  /** `toUserFriendlyMessage`: validation messages as they are, the others framed. */
  function UserFriendlyMessage(e: ValifyError): (m: string)
    ensures e.ValidationError? ==> m == e.message
    ensures e.CameraError? ==> m == CameraPrefix + e.message + CameraSuffix
    ensures e.StorageError? ==> m == StoragePrefix + e.message + StorageSuffix
  {
    match e
    case ValidationError(_, message) => message
    case CameraError(message) => CameraPrefix + message + CameraSuffix
    case StorageError(message) => StoragePrefix + message + StorageSuffix
  }

  /** The framing can be undone: the message is recoverable from the wording. */
  lemma UserFriendlyMessageRecoverable(e: ValifyError)
    requires !e.ValidationError?
    ensures var m := UserFriendlyMessage(e);
      e.CameraError? ==> m[|CameraPrefix|..|m| - |CameraSuffix|] == e.message
    ensures var m := UserFriendlyMessage(e);
      e.StorageError? ==> m[|StoragePrefix|..|m| - |StorageSuffix|] == e.message
  {
  }

  /** `toValifyError`: security and illegal-state exceptions are camera errors, everything else storage. */
  function ToValifyError(e: Exception): (r: ValifyError)
    ensures e.kind == Security ==> r == CameraError("Camera permission denied")
    ensures e.kind == IllegalState ==> r == CameraError("Camera not available")
    ensures e.kind != Security && e.kind != IllegalState ==>
      r == StorageError("An unexpected error occurred: " + Show(e.message))
    ensures !r.ValidationError?
  {
    match e.kind
    case Security => CameraError("Camera permission denied")
    case IllegalState => CameraError("Camera not available")
    case _ => StorageError("An unexpected error occurred: " + Show(e.message))
  }
}

=== FILE: exceptions.dfy ===
/**
 * The exceptions the modelled code throws or catches, reduced to the class
 * the handlers test for and the nullable message they read.
 */
module Exceptions {
  import opened Wrappers

  datatype ExceptionKind =
    | IllegalArgument       // IllegalArgumentException
    | IllegalState          // IllegalStateException
    | Security              // SecurityException
    | ImageCapture          // CameraX ImageCaptureException
    | Other                 // any other Exception subclass

  datatype Exception = Exception(kind: ExceptionKind, message: Option<string>)

  /** Either a value or the exception that replaced it (Kotlin `Result<T>`, or a throwing call). */
  datatype Outcome<+T> = Returned(value: T) | Threw(exception: Exception)
}

=== FILE: face_detection.dfy ===
/**
 * What the face detector reports for one image, as the code reads it: the
 * list of faces with each face's optional smiling probability, or the
 * failure the detector's task completed with. The detector itself is an
 * oracle; the probabilities are only ever compared with constants, so they
 * are reals.
 */
module FaceDetection {
  import opened Wrappers

  datatype Face = Face(smilingProbability: Option<real>)

  datatype Detection =
    | Faces(faces: seq<Face>)
    | DetectionFailed(message: Option<string>)

  /** Kotlin's `smilingProbability ?: 0f`: a missing probability reads as 0. */
  function SmileOrZero(f: Face): (p: real)
    ensures f.smilingProbability.None? ==> p == 0.0
    ensures f.smilingProbability.Some? ==> p == f.smilingProbability.value
  {
    f.smilingProbability.GetOr(0.0)
  }
}

=== FILE: form_validators.dfy ===
/**
 * The stand-alone form validators: the SDK's phone-number and password
 * checks and the app's email check. Each returns a `FieldCheck` whose
 * message is present exactly when the check failed.
 */
module FormValidators {
  import opened Wrappers
  import opened Text

  datatype FieldCheck = FieldCheck(successful: bool, errorMessage: Option<string>) {
    /** A failed check carries its message, a successful one carries none. */
    ghost predicate WellFormed() {
      successful <==> errorMessage.None?
    }
  }

  function Fail(message: string): FieldCheck {
    FieldCheck(false, Some(message))
  }

  const Ok := FieldCheck(true, None)

  // ---------------------------------------------------------------------
  // Phone number: ^(\+20|0)\d{10}$

  /** The pattern's two alternatives: "+20" or "0", then exactly ten digits. */
  ghost predicate EgyptianPhoneRegex(s: string) {
    || (|s| == 13 && s[..3] == "+20" && AllIn(s, 3, 13, IsDigit))
    || (|s| == 11 && s[0] == '0' && AllIn(s, 1, 11, IsDigit))
  }

  /** How many characters the prefix alternative consumes, if either matches. */
  function PhonePrefixLength(s: string): Option<nat> {
    if |s| >= 3 && s[0] == '+' && s[1] == '2' && s[2] == '0' then Some(3)
    else if |s| >= 1 && s[0] == '0' then Some(1)
    else None
  }

  /** Scan: the prefix, then digits to the end, ten of them. */
  function ScanEgyptianPhone(s: string): bool {
    match PhonePrefixLength(s)
    case None => false
    case Some(n) => n <= |s| && Span(s, n, IsDigit) == |s| && |s| - n == 10
  }

  lemma ScanEgyptianPhoneCorrect(s: string)
    ensures ScanEgyptianPhone(s) <==> EgyptianPhoneRegex(s)
  {
    if |s| >= 3 && s[..3] == "+20" {
      assert s[0] == '+' && s[1] == '2' && s[2] == '0' by { assert s[..3][0] == s[0] && s[..3][1] == s[1] && s[..3][2] == s[2]; }
    }
    if PhonePrefixLength(s) == Some(3) {
      assert s[..3] == "+20";
    }
    if EgyptianPhoneRegex(s) {
      var n := PhonePrefixLength(s).value;
      SpanUnique(s, n, IsDigit, |s|);
    }
  }

  /** `ValidatePhoneNumber`: blank first, then the pattern. */
  function ValidatePhoneNumber(phoneNumber: string): (r: FieldCheck)
    ensures r.WellFormed()
    ensures IsBlank(phoneNumber) ==> r == Fail("Phone number cannot be blank")
    ensures !IsBlank(phoneNumber) && !EgyptianPhoneRegex(phoneNumber) ==> r == Fail("That's not a valid phone number")
    ensures r.successful <==> EgyptianPhoneRegex(phoneNumber)
  {
    ScanEgyptianPhoneCorrect(phoneNumber);
    if IsBlank(phoneNumber) then Fail("Phone number cannot be blank")
    else if !ScanEgyptianPhone(phoneNumber) then Fail("That's not a valid phone number")
    else Ok
  }

  /** Every accepted number has 11 or 13 characters. */
  lemma AcceptedPhoneNumberLength(phoneNumber: string)
    requires ValidatePhoneNumber(phoneNumber).successful
    ensures |phoneNumber| == 11 || |phoneNumber| == 13
    ensures |phoneNumber| == 11 ==> phoneNumber[0] == '0'
    ensures |phoneNumber| == 13 ==> phoneNumber[..3] == "+20"
  {
  }

  // ---------------------------------------------------------------------
  // Password: at least 8 characters, then some letter and some digit

  const MinPasswordLength: nat := 8

  /** `ValidatePassword`: length first, then letter-and-digit. */
  function ValidatePassword(password: string): (r: FieldCheck)
    ensures r.WellFormed()
    ensures Utf16Length(password) < MinPasswordLength ==> r == Fail("Password needs to consist of at least 8 characters")
    ensures Utf16Length(password) >= MinPasswordLength && !(Any(password, IsLetter) && Any(password, IsDigit)) ==>
      r == Fail("Password needs to contain at least one letter and digit")
    ensures r.successful <==> Utf16Length(password) >= MinPasswordLength && Any(password, IsLetter) && Any(password, IsDigit)
  {
    if Utf16Length(password) < MinPasswordLength then Fail("Password needs to consist of at least 8 characters")
    else if !(Any(password, IsLetter) && Any(password, IsDigit)) then Fail("Password needs to contain at least one letter and digit")
    else Ok
  }

  /** Appending characters to an accepted password keeps it accepted. */
  lemma PasswordMonotone(password: string, more: string)
    requires ValidatePassword(password).successful
    ensures ValidatePassword(password + more).successful
  {
    Utf16LengthAppend(password, more);
    var i :| 0 <= i < |password| && IsLetter(password[i]);
    var j :| 0 <= j < |password| && IsDigit(password[j]);
    assert (password + more)[i] == password[i];
    assert (password + more)[j] == password[j];
  }

  /** Five characters can pass the eight-unit minimum: each emoji counts twice. */
  lemma EmojiPasswordLength()
    ensures ValidatePassword("a1\U{1F600}\U{1F600}\U{1F600}").successful
    ensures !ValidatePassword("a1bcdef").successful
  {
    var p := "a1\U{1F600}\U{1F600}\U{1F600}";
    assert Utf16Length(p) == 8 by {
      assert p[..4] == "a1\U{1F600}\U{1F600}";
      assert p[..4][..3] == "a1\U{1F600}";
      assert p[..4][..3][..2] == "a1";
      assert "a1"[..1] == "a";
      assert "a"[..0] == "";
    }
    assert IsLetter(p[0]) && IsDigit(p[1]);
  }

  // ---------------------------------------------------------------------
  // App email: ^[A-Za-z0-9+_.-]+@[A-Za-z0-9.-]+\.[A-Za-z]{2,6}$

  predicate IsAppLocalChar(c: char) {
    IsLetter(c) || IsDigit(c) || c == '+' || c == '_' || c == '.' || c == '-'
  }

  predicate IsAppDomainChar(c: char) {
    IsLetter(c) || IsDigit(c) || c == '.' || c == '-'
  }

  /** From `start`: a non-empty domain, a '.', then a 2 to 6 letter suffix to the end. */
  ghost predicate AppDomainRegex(s: string, start: nat) {
    exists m :: start < m < |s| && s[m] == '.' && AllIn(s, start, m, IsAppDomainChar)
      && 2 <= |s| - (m + 1) <= 6 && AllIn(s, m + 1, |s|, IsLetter)
  }

  /** The whole pattern, as a decomposition of the input. */
  ghost predicate AppEmailRegex(s: string) {
    exists i :: 0 < i < |s| && s[i] == '@' && AllIn(s, 0, i, IsAppLocalChar) && AppDomainRegex(s, i + 1)
  }

  /**
   * Scan of the domain part: the suffix is the trailing run of letters, so
   * the '.' before it is the last character that is not a letter.
   */
  function ScanAppDomain(s: string, start: nat): bool
    requires start <= |s|
  {
    var b := SpanBack(s, |s|, IsLetter);
    start + 2 <= b && s[b - 1] == '.' && 2 <= |s| - b <= 6 && Span(s, start, IsAppDomainChar) >= b - 1
  }

  function ScanAppEmail(s: string): bool {
    var i := Span(s, 0, IsAppLocalChar);
    0 < i < |s| && s[i] == '@' && ScanAppDomain(s, i + 1)
  }

  lemma ScanAppDomainCorrect(s: string, start: nat)
    requires start <= |s|
    ensures ScanAppDomain(s, start) <==> AppDomainRegex(s, start)
  {
    var b := SpanBack(s, |s|, IsLetter);
    if ScanAppDomain(s, start) {
      var m := b - 1;
      assert AllIn(s, start, m, IsAppDomainChar);
    }
    if AppDomainRegex(s, start) {
      var m :| start < m < |s| && s[m] == '.' && AllIn(s, start, m, IsAppDomainChar)
        && 2 <= |s| - (m + 1) <= 6 && AllIn(s, m + 1, |s|, IsLetter);
      SpanBackUnique(s, |s|, IsLetter, m + 1);
    }
  }

  lemma ScanAppEmailCorrect(s: string)
    ensures ScanAppEmail(s) <==> AppEmailRegex(s)
  {
    var i := Span(s, 0, IsAppLocalChar);
    if ScanAppEmail(s) {
      ScanAppDomainCorrect(s, i + 1);
    }
    if AppEmailRegex(s) {
      var i' :| 0 < i' < |s| && s[i'] == '@' && AllIn(s, 0, i', IsAppLocalChar) && AppDomainRegex(s, i' + 1);
      SpanUnique(s, 0, IsAppLocalChar, i');
      ScanAppDomainCorrect(s, i' + 1);
    }
  }

  /** The app's `ValidateEmail`: blank first, then the pattern. */
  function ValidateEmail(email: string): (r: FieldCheck)
    ensures r.WellFormed()
    ensures IsBlank(email) ==> r == Fail("Email cannot be blank")
    ensures !IsBlank(email) && !AppEmailRegex(email) ==> r == Fail("That's not a valid email")
    ensures r.successful <==> !IsBlank(email) && AppEmailRegex(email)
  {
    ScanAppEmailCorrect(email);
    if IsBlank(email) then Fail("Email cannot be blank")
    else if !ScanAppEmail(email) then Fail("That's not a valid email")
    else Ok
  }

  /**
   * An accepted email has exactly one '@', no whitespace, and after its
   * last '.' a suffix of 2 to 6 letters.
   */
  lemma AcceptedAppEmailShape(email: string)
    requires ValidateEmail(email).successful
    ensures exists i :: 0 < i < |email| && email[i] == '@' && forall k :: 0 <= k < |email| && k != i ==> email[k] != '@'
    ensures forall k :: 0 <= k < |email| ==> !IsWhitespace(email[k])
    ensures exists m :: 0 < m < |email| && email[m] == '.' && 2 <= |email| - (m + 1) <= 6 && AllIn(email, m + 1, |email|, IsLetter)
  {
    var i :| 0 < i < |email| && email[i] == '@' && AllIn(email, 0, i, IsAppLocalChar) && AppDomainRegex(email, i + 1);
    var m :| i + 1 < m < |email| && email[m] == '.' && AllIn(email, i + 1, m, IsAppDomainChar)
      && 2 <= |email| - (m + 1) <= 6 && AllIn(email, m + 1, |email|, IsLetter);
    assert forall k :: 0 <= k < |email| && k != i ==> email[k] != '@' by {
      forall k | 0 <= k < |email| && k != i ensures email[k] != '@' {
        if k < i { assert IsAppLocalChar(email[k]); }
        else if k < m { assert IsAppDomainChar(email[k]); }
        else if k > m { assert IsLetter(email[k]); }
      }
    }
    assert forall k :: 0 <= k < |email| ==> !IsWhitespace(email[k]) by {
      forall k | 0 <= k < |email| ensures !IsWhitespace(email[k]) {
        if k < i { assert IsAppLocalChar(email[k]); }
        else if i < k < m { assert IsAppDomainChar(email[k]); }
        else if k > m { assert IsLetter(email[k]); }
      }
    }
  }
}

=== FILE: registration_repository.dfy ===
/**
 * The registration repository over the DAO: the mapping between the domain
 * record and the table row, saving, the taken-checks, and attaching a
 * selfie to a registration.
 */
module RegistrationRepository {
  import opened Wrappers
  import opened RegistrationStore

  /** The domain record `UserRegistration`. */
  datatype UserRegistration = UserRegistration(
    username: string,
    phoneNumber: string,
    email: string,
    password: string,
    selfieImagePath: Option<string>)

  /**
   * `toEntity`: a fresh row carrying the five domain fields. The source
   * passes no device id here; the model stores the empty string.
   */
  function ToEntity(r: UserRegistration): (e: Entity)
    ensures e.id == 0 && !e.registrationCompleted
    ensures ToDomain(e) == r
  {
    Entity(0, r.username, r.phoneNumber, r.email, r.password, "", r.selfieImagePath, false)
  }

  /** `toDomain`: the five domain fields of a row. */
  function ToDomain(e: Entity): UserRegistration {
    UserRegistration(e.username, e.phoneNumber, e.email, e.password, e.selfieImagePath)
  }

  /** Mapping back and forth loses nothing. */
  lemma DomainEntityRoundTrip(r: UserRegistration)
    ensures ToDomain(ToEntity(r)) == r
  {
  }

  /** `saveRegistration`: the id is exactly the one the insert produced. */
  function SaveRegistration(t: Table, r: UserRegistration): (res: InsertResult)
    ensures res == Aborted <==> UsernameTaken(t, r.username) || EmailTaken(t, r.email)
    ensures res.Inserted? ==> res.id == t.nextId && |res.table.rows| == |t.rows| + 1
    ensures res.Inserted? ==> res.table.rows[..|t.rows|] == t.rows && ToDomain(res.table.rows[|t.rows|]) == r
  {
    Insert(t, ToEntity(r))
  }

  /** `isUsernameTaken` and `isEmailTaken` pass the DAO's answers through. */
  function UsernameTaken(t: Table, username: string): (taken: bool)
    ensures taken <==> exists i :: 0 <= i < |t.rows| && t.rows[i].username == username
  {
    IsUsernameTaken(t, username)
  }

  function EmailTaken(t: Table, email: string): (taken: bool)
    ensures taken <==> exists i :: 0 <= i < |t.rows| && t.rows[i].email == email
  {
    IsEmailTaken(t, email)
  }

  /** `getLatestIncompleteRegistration`: the latest incomplete row, as a domain record. */
  function LatestIncompleteRegistration(t: Table): (r: Option<UserRegistration>)
    ensures r.None? <==> forall i :: 0 <= i < |t.rows| ==> t.rows[i].registrationCompleted
    ensures r.Some? ==>
      exists i ::
        && 0 <= i < |t.rows| && !t.rows[i].registrationCompleted && ToDomain(t.rows[i]) == r.value
        && forall j :: 0 <= j < |t.rows| && !t.rows[j].registrationCompleted ==> t.rows[j].id <= t.rows[i].id
  {
    match LatestIncomplete(t.rows)
    case None => None
    case Some(e) => Some(ToDomain(e))
  }

  /**
   * A registration just saved is the latest incomplete one: its id is above
   * every id in the table, and it is not completed.
   */
  lemma SavedIsLatestIncomplete(t: Table, r: UserRegistration)
    requires Valid(t)
    requires SaveRegistration(t, r).Inserted?
    ensures LatestIncompleteRegistration(SaveRegistration(t, r).table) == Some(r)
  {
    var t' := SaveRegistration(t, r).table;
    InsertPreservesValid(t, ToEntity(r));
    var n := |t.rows|;
    assert t'.rows[n] == ToEntity(r).(id := t.nextId);
    forall j | 0 <= j < |t'.rows| && !t'.rows[j].registrationCompleted
      ensures t'.rows[j].id <= t'.rows[n].id
    {
      if j < n {
        assert t'.rows[j] == t.rows[j];
      }
    }
    LatestIncompleteUnique(t', n);
  }

  /** The row with its selfie attached and marked complete. */
  function WithSelfie(e: Entity, imagePath: string): Entity {
    e.(selfieImagePath := Some(imagePath), registrationCompleted := true)
  }

  /**
   * `updateSelfieImage` as written, for one emission of the latest-incomplete
   * query: `registrationId` is not consulted; the latest incomplete row is
   * the one updated. With no incomplete row nothing changes.
   */
  function UpdateSelfieImage(t: Table, registrationId: int, imagePath: string): (t': Table)
    requires Valid(t)
    ensures Valid(t')
    ensures LatestIncomplete(t.rows) == None ==> t' == t
    ensures LatestIncomplete(t.rows).Some? ==>
      var e := LatestIncomplete(t.rows).value;
      |t'.rows| == |t.rows| && t'.nextId == t.nextId
      && forall i :: 0 <= i < |t.rows| ==> t'.rows[i] == (if t.rows[i].id == e.id then WithSelfie(e, imagePath) else t.rows[i])
  {
    match LatestIncomplete(t.rows)
    case None => t
    case Some(e) =>
      var i :| 0 <= i < |t.rows| && t.rows[i] == e;
      UpdateSameKeys(t, i, WithSelfie(e, imagePath));
      Update(t, WithSelfie(e, imagePath)).table
  }

  /**
   * Two incomplete registrations, ids 1 and 2: attaching a selfie "to
   * registration 1" completes registration 2 and leaves 1 incomplete.
   */
  lemma UpdateSelfieImageIgnoresId()
    ensures var a := Entity(1, "alice", "01000000000", "a@x.y", "pw", "", None, false);
            var b := Entity(2, "bob", "01000000001", "b@x.y", "pw", "", None, false);
            var t' := UpdateSelfieImage(Table([a, b], 3), 1, "selfie_1.jpg");
            t'.rows == [a, WithSelfie(b, "selfie_1.jpg")]
  {
    var a := Entity(1, "alice", "01000000000", "a@x.y", "pw", "", None, false);
    var b := Entity(2, "bob", "01000000001", "b@x.y", "pw", "", None, false);
    var t := Table([a, b], 3);
    assert "alice" != "bob" by { assert "alice"[0] != "bob"[0]; }
    assert "a@x.y" != "b@x.y" by { assert "a@x.y"[0] != "b@x.y"[0]; }
    assert Valid(t);
    LatestIncompleteUnique(t, 1);
  }

  /**
   * The Room query re-emits after each update, so a collector that keeps
   * running applies the update once per emission: `n` emissions.
   */
  function UpdateSelfieImageEmissions(t: Table, registrationId: int, imagePath: string, n: nat): (t': Table)
    requires Valid(t)
    ensures Valid(t')
    decreases n
  {
    if n == 0 then t
    else UpdateSelfieImageEmissions(UpdateSelfieImage(t, registrationId, imagePath), registrationId, imagePath, n - 1)
  }

  /** The ids of the rows not yet completed. */
  ghost function IncompleteIds(t: Table): set<int> {
    set i | 0 <= i < |t.rows| && !t.rows[i].registrationCompleted :: t.rows[i].id
  }

  /** Completing the rows with id `x`, and touching no other row, removes exactly `x` from the incomplete ids. */
  lemma CompletingOneId(t: Table, t': Table, x: int)
    requires |t'.rows| == |t.rows|
    requires forall i :: 0 <= i < |t.rows| ==>
      if t.rows[i].id == x then t'.rows[i].registrationCompleted else t'.rows[i] == t.rows[i]
    ensures IncompleteIds(t') == IncompleteIds(t) - {x}
  {
    forall id | id in IncompleteIds(t')
      ensures id in IncompleteIds(t) && id != x
    {
      var i :| 0 <= i < |t'.rows| && !t'.rows[i].registrationCompleted && t'.rows[i].id == id;
      assert t'.rows[i] == t.rows[i];
    }
    forall id | id in IncompleteIds(t) && id != x
      ensures id in IncompleteIds(t')
    {
      var i :| 0 <= i < |t.rows| && !t.rows[i].registrationCompleted && t.rows[i].id == id;
      assert t'.rows[i] == t.rows[i];
    }
  }

  /** One emission completes exactly the latest incomplete row. */
  lemma UpdateSelfieImageShrinks(t: Table, registrationId: int, imagePath: string)
    requires Valid(t)
    requires LatestIncomplete(t.rows).Some?
    ensures LatestIncomplete(t.rows).value.id in IncompleteIds(t)
    ensures IncompleteIds(UpdateSelfieImage(t, registrationId, imagePath)) == IncompleteIds(t) - {LatestIncomplete(t.rows).value.id}
  {
    var e := LatestIncomplete(t.rows).value;
    var k :| 0 <= k < |t.rows| && t.rows[k] == e;
    assert e.id in IncompleteIds(t) by {
      assert !t.rows[k].registrationCompleted;
    }
    CompletingOneId(t, UpdateSelfieImage(t, registrationId, imagePath), e.id);
  }

  /** The table a never-ending collect settles on, and the ids it completed, in order. */
  datatype Collected = Collected(table: Table, completedIds: seq<int>)

  /**
   * `r` is what completing every incomplete row of `t` with `imagePath`
   * leaves: completed rows untouched, the others given the selfie; the ids
   * completed are exactly the incomplete ones, in decreasing order.
   */
  ghost predicate CompletesAll(t: Table, imagePath: string, r: Collected) {
    && |r.table.rows| == |t.rows| && r.table.nextId == t.nextId
    && (forall i :: 0 <= i < |t.rows| ==>
          r.table.rows[i] == (if t.rows[i].registrationCompleted then t.rows[i] else WithSelfie(t.rows[i], imagePath)))
    && (forall k :: 0 <= k < |r.completedIds| ==> r.completedIds[k] in IncompleteIds(t))
    && (forall id :: id in IncompleteIds(t) ==> id in r.completedIds)
    && (forall j, k :: 0 <= j < k < |r.completedIds| ==> r.completedIds[j] > r.completedIds[k])
  }

  /** After one emission, giving the rest the selfie gives every incomplete row the selfie. */
  lemma CollectStepRows(t: Table, registrationId: int, imagePath: string, rows: seq<Entity>)
    requires Valid(t) && LatestIncomplete(t.rows).Some?
    requires var t1 := UpdateSelfieImage(t, registrationId, imagePath);
      && |rows| == |t1.rows|
      && forall i :: 0 <= i < |t1.rows| ==>
           rows[i] == (if t1.rows[i].registrationCompleted then t1.rows[i] else WithSelfie(t1.rows[i], imagePath))
    ensures forall i :: 0 <= i < |t.rows| ==>
      rows[i] == (if t.rows[i].registrationCompleted then t.rows[i] else WithSelfie(t.rows[i], imagePath))
  {
    var e := LatestIncomplete(t.rows).value;
    var t1 := UpdateSelfieImage(t, registrationId, imagePath);
    var k :| 0 <= k < |t.rows| && t.rows[k] == e;
    forall i | 0 <= i < |t.rows|
      ensures rows[i] == (if t.rows[i].registrationCompleted then t.rows[i] else WithSelfie(t.rows[i], imagePath))
    {
      if t.rows[i].id == e.id {
        assert i == k;
      } else {
        assert t1.rows[i] == t.rows[i];
      }
    }
  }

  /** Putting the greatest element of `ids` in front of a decreasing listing of the others lists all of `ids`, decreasing. */
  lemma PrependGreatest(ids: set<int>, x: int, later: seq<int>)
    requires x in ids && forall id :: id in ids ==> id <= x
    requires forall k :: 0 <= k < |later| ==> later[k] in ids - {x}
    requires forall id :: id in ids - {x} ==> id in later
    requires forall j, k :: 0 <= j < k < |later| ==> later[j] > later[k]
    ensures forall k :: 0 <= k < |[x] + later| ==> ([x] + later)[k] in ids
    ensures forall id :: id in ids ==> id in [x] + later
    ensures forall j, k :: 0 <= j < k < |[x] + later| ==> ([x] + later)[j] > ([x] + later)[k]
  {
    var all := [x] + later;
    forall j, k | 0 <= j < k < |all|
      ensures all[j] > all[k]
    {
      assert all[k] == later[k - 1];
      if 0 < j {
        assert all[j] == later[j - 1];
      }
    }
  }

  /** Putting the latest incomplete id in front of the rest's ids keeps them decreasing and complete. */
  lemma CollectStepIds(t: Table, registrationId: int, imagePath: string, later: seq<int>)
    requires Valid(t) && LatestIncomplete(t.rows).Some?
    requires var t1 := UpdateSelfieImage(t, registrationId, imagePath);
      && (forall k :: 0 <= k < |later| ==> later[k] in IncompleteIds(t1))
      && (forall id :: id in IncompleteIds(t1) ==> id in later)
      && (forall j, k :: 0 <= j < k < |later| ==> later[j] > later[k])
    ensures var ids := [LatestIncomplete(t.rows).value.id] + later;
      && (forall k :: 0 <= k < |ids| ==> ids[k] in IncompleteIds(t))
      && (forall id :: id in IncompleteIds(t) ==> id in ids)
      && (forall j, k :: 0 <= j < k < |ids| ==> ids[j] > ids[k])
  {
    var e := LatestIncomplete(t.rows).value;
    UpdateSelfieImageShrinks(t, registrationId, imagePath);
    forall id | id in IncompleteIds(t)
      ensures id <= e.id
    {
      var i :| 0 <= i < |t.rows| && !t.rows[i].registrationCompleted && t.rows[i].id == id;
    }
    PrependGreatest(IncompleteIds(t), e.id, later);
  }

  /** One emission followed by the rest of the collect completes everything, greatest id first. */
  lemma CollectStep(t: Table, registrationId: int, imagePath: string, rest: Collected)
    requires Valid(t) && LatestIncomplete(t.rows).Some?
    requires CompletesAll(UpdateSelfieImage(t, registrationId, imagePath), imagePath, rest)
    ensures CompletesAll(t, imagePath, Collected(rest.table, [LatestIncomplete(t.rows).value.id] + rest.completedIds))
  {
    CollectStepRows(t, registrationId, imagePath, rest.table.rows);
    CollectStepIds(t, registrationId, imagePath, rest.completedIds);
  }

  /**
   * The collect of `updateSelfieImage`, run until the query emits `null`:
   * every incomplete row is completed with the same path, greatest id
   * first, and no incomplete row is left. After that the collector waits
   * for the next emission, and the call never returns.
   */
  function CollectUpdates(t: Table, registrationId: int, imagePath: string): (r: Collected)
    requires Valid(t)
    ensures Valid(r.table) && LatestIncomplete(r.table.rows) == None
    ensures CompletesAll(t, imagePath, r)
    decreases |IncompleteIds(t)|
  {
    match LatestIncomplete(t.rows)
    case None =>
      assert IncompleteIds(t) == {};
      Collected(t, [])
    case Some(e) =>
      var t1 := UpdateSelfieImage(t, registrationId, imagePath);
      UpdateSelfieImageShrinks(t, registrationId, imagePath);
      var rest := CollectUpdates(t1, registrationId, imagePath);
      CollectStep(t, registrationId, imagePath, rest);
      Collected(rest.table, [e.id] + rest.completedIds)
  }

  /** The hazard: two emissions complete both incomplete registrations. */
  lemma UpdateSelfieImageEmissionsCompleteAll()
    ensures var a := Entity(1, "alice", "01000000000", "a@x.y", "pw", "", None, false);
            var b := Entity(2, "bob", "01000000001", "b@x.y", "pw", "", None, false);
            var t' := UpdateSelfieImageEmissions(Table([a, b], 3), 1, "selfie_1.jpg", 2);
            t'.rows == [WithSelfie(a, "selfie_1.jpg"), WithSelfie(b, "selfie_1.jpg")]
  {
    var a := Entity(1, "alice", "01000000000", "a@x.y", "pw", "", None, false);
    var b := Entity(2, "bob", "01000000001", "b@x.y", "pw", "", None, false);
    var t := Table([a, b], 3);
    assert "alice" != "bob" by { assert "alice"[0] != "bob"[0]; }
    assert "a@x.y" != "b@x.y" by { assert "a@x.y"[0] != "b@x.y"[0]; }
    assert Valid(t);
    LatestIncompleteUnique(t, 1);
    var t1 := UpdateSelfieImage(t, 1, "selfie_1.jpg");
    assert t1.rows == [a, WithSelfie(b, "selfie_1.jpg")];
    LatestIncompleteUnique(t1, 0);
    var t2 := UpdateSelfieImage(t1, 1, "selfie_1.jpg");
    assert t2.rows == [WithSelfie(a, "selfie_1.jpg"), WithSelfie(b, "selfie_1.jpg")];
    assert UpdateSelfieImageEmissions(t1, 1, "selfie_1.jpg", 1) == UpdateSelfieImageEmissions(t2, 1, "selfie_1.jpg", 0);
  }

  /**
   * The corrected `updateSelfieImage`: attaches the selfie to the row with
   * the given id, if it exists and is not yet complete, and to no other row.
   */
  function UpdateSelfieImageById(t: Table, registrationId: int, imagePath: string): (t': Table)
    requires Valid(t)
    ensures Valid(t')
    ensures |t'.rows| == |t.rows| && t'.nextId == t.nextId
    ensures forall i :: 0 <= i < |t.rows| ==>
      t'.rows[i] == (if t.rows[i].id == registrationId && !t.rows[i].registrationCompleted
                     then WithSelfie(t.rows[i], imagePath) else t.rows[i])
  {
    if exists i :: 0 <= i < |t.rows| && t.rows[i].id == registrationId && !t.rows[i].registrationCompleted then
      var i :| 0 <= i < |t.rows| && t.rows[i].id == registrationId && !t.rows[i].registrationCompleted;
      UpdateSameKeys(t, i, WithSelfie(t.rows[i], imagePath));
      Update(t, WithSelfie(t.rows[i], imagePath)).table
    else t
  }

  /** Applying the corrected update again changes nothing more. */
  lemma UpdateSelfieImageByIdIdempotent(t: Table, registrationId: int, imagePath: string)
    requires Valid(t)
    ensures UpdateSelfieImageById(UpdateSelfieImageById(t, registrationId, imagePath), registrationId, imagePath)
         == UpdateSelfieImageById(t, registrationId, imagePath)
  {
    var t1 := UpdateSelfieImageById(t, registrationId, imagePath);
    var t2 := UpdateSelfieImageById(t1, registrationId, imagePath);
    assert t2.rows == t1.rows;
  }
}

=== FILE: registration_store.dfy ===
/**
 * The `user_registrations` table and its data-access object, as an
 * in-memory table.
 *
 * Rows are kept in insertion order. The primary key `id` is auto-generated
 * when a row is inserted with id 0: the table remembers the next free id
 * (SQLite's AUTOINCREMENT never reuses an id). `username` and `email` carry
 * unique indices, and an insert that would break either, or reuse an
 * explicit id, aborts and leaves the table as it was.
 */
module RegistrationStore {
  import opened Wrappers

  /** A `user_registrations` row. */
  datatype Entity = Entity(
    id: int,
    username: string,
    phoneNumber: string,
    email: string,
    password: string,
    deviceId: string,
    selfieImagePath: Option<string>,
    registrationCompleted: bool)

  /** A row as the constructor builds it: id left to the table, no selfie, not completed. */
  function NewEntity(username: string, phoneNumber: string, email: string, password: string, deviceId: string): (e: Entity)
    ensures e.id == 0 && e.selfieImagePath == None && !e.registrationCompleted
    ensures e.username == username && e.phoneNumber == phoneNumber && e.email == email
    ensures e.password == password && e.deviceId == deviceId
  {
    Entity(0, username, phoneNumber, email, password, deviceId, None, false)
  }

  datatype Table = Table(rows: seq<Entity>, nextId: int)

  const EmptyTable := Table([], 1)

  /** Primary key and both unique indices hold, and every id is below the next one to be handed out. */
  ghost predicate Valid(t: Table) {
    && (forall i, j :: 0 <= i < j < |t.rows| ==> t.rows[i].id != t.rows[j].id)
    && (forall i, j :: 0 <= i < j < |t.rows| ==> t.rows[i].username != t.rows[j].username)
    && (forall i, j :: 0 <= i < j < |t.rows| ==> t.rows[i].email != t.rows[j].email)
    && (forall i :: 0 <= i < |t.rows| ==> t.rows[i].id < t.nextId)
  }

  lemma EmptyTableValid()
    ensures Valid(EmptyTable)
  {
  }

  ghost predicate HasId(t: Table, id: int) {
    exists i :: 0 <= i < |t.rows| && t.rows[i].id == id
  }

  /** `isUsernameTaken`: `SELECT EXISTS(... WHERE username = :username)`. */
  function IsUsernameTaken(t: Table, username: string): (taken: bool)
    ensures taken <==> exists i :: 0 <= i < |t.rows| && t.rows[i].username == username
    decreases |t.rows|
  {
    if |t.rows| == 0 then false
    else t.rows[|t.rows| - 1].username == username || IsUsernameTaken(Table(t.rows[..|t.rows| - 1], t.nextId), username)
  }

  /** `isEmailTaken`: `SELECT EXISTS(... WHERE email = :email)`. */
  function IsEmailTaken(t: Table, email: string): (taken: bool)
    ensures taken <==> exists i :: 0 <= i < |t.rows| && t.rows[i].email == email
    decreases |t.rows|
  {
    if |t.rows| == 0 then false
    else t.rows[|t.rows| - 1].email == email || IsEmailTaken(Table(t.rows[..|t.rows| - 1], t.nextId), email)
  }

  /** Whether some row already holds the explicit primary key `id`. */
  function IsIdTaken(t: Table, id: int): (taken: bool)
    ensures taken <==> HasId(t, id)
    decreases |t.rows|
  {
    if |t.rows| == 0 then false
    else t.rows[|t.rows| - 1].id == id || IsIdTaken(Table(t.rows[..|t.rows| - 1], t.nextId), id)
  }

  datatype InsertResult = Inserted(table: Table, id: int) | Aborted

  /** The key a row is stored under: the next free id when left at 0. */
  function AssignedId(t: Table, e: Entity): int {
    if e.id == 0 then t.nextId else e.id
  }

  /** `insertRegistration` with `OnConflictStrategy.ABORT`. */
  function Insert(t: Table, e: Entity): (r: InsertResult)
    ensures r == Aborted <==>
      IsUsernameTaken(t, e.username) || IsEmailTaken(t, e.email) || (e.id != 0 && IsIdTaken(t, e.id))
    ensures r.Inserted? ==> r.id == AssignedId(t, e) && r.table.rows == t.rows + [e.(id := r.id)]
    ensures r.Inserted? && e.id == 0 ==> r.id == t.nextId
    ensures r.Inserted? ==> r.table.nextId > r.id && r.table.nextId >= t.nextId
  {
    if IsUsernameTaken(t, e.username) || IsEmailTaken(t, e.email) || (e.id != 0 && IsIdTaken(t, e.id)) then Aborted
    else
      var id := AssignedId(t, e);
      Inserted(Table(t.rows + [e.(id := id)], if id + 1 > t.nextId then id + 1 else t.nextId), id)
  }

  /** A successful insert hands out an id no row had, and keeps the table valid. */
  lemma InsertPreservesValid(t: Table, e: Entity)
    requires Valid(t)
    requires Insert(t, e).Inserted?
    ensures !HasId(t, Insert(t, e).id)
    ensures Valid(Insert(t, e).table)
  {
    var r := Insert(t, e);
    if e.id == 0 {
      assert forall i :: 0 <= i < |t.rows| ==> t.rows[i].id < t.nextId;
    }
    var rows := r.table.rows;
    assert forall i :: 0 <= i < |t.rows| ==> rows[i] == t.rows[i];
  }

  /** Inserting the same row twice: the second insert aborts on the unique username. */
  lemma InsertTwiceAborts(t: Table, e: Entity)
    requires Insert(t, e).Inserted?
    ensures Insert(Insert(t, e).table, e) == Aborted
  {
    var t1 := Insert(t, e).table;
    assert t1.rows[|t1.rows| - 1].username == e.username;
  }

  /**
   * `getLatestIncompleteRegistration`: the row with `registrationCompleted = 0`
   * and the greatest id, or none.
   */
  function LatestIncomplete(rows: seq<Entity>): (r: Option<Entity>)
    ensures r == None <==> forall i :: 0 <= i < |rows| ==> rows[i].registrationCompleted
    ensures r.Some? ==> r.value in rows && !r.value.registrationCompleted
    ensures r.Some? ==> forall i :: 0 <= i < |rows| && !rows[i].registrationCompleted ==> rows[i].id <= r.value.id
  {
    if |rows| == 0 then None
    else
      var last := rows[|rows| - 1];
      var earlier := LatestIncomplete(rows[..|rows| - 1]);
      if last.registrationCompleted then earlier
      else if earlier.Some? && earlier.value.id > last.id then earlier
      else Some(last)
  }

  /** In a valid table ids are unique, so the query picks out exactly the incomplete row with the greatest id. */
  lemma LatestIncompleteUnique(t: Table, i: nat)
    requires Valid(t)
    requires i < |t.rows| && !t.rows[i].registrationCompleted
    requires forall j :: 0 <= j < |t.rows| && !t.rows[j].registrationCompleted ==> t.rows[j].id <= t.rows[i].id
    ensures LatestIncomplete(t.rows) == Some(t.rows[i])
  {
    var r := LatestIncomplete(t.rows).value;
    var j :| 0 <= j < |t.rows| && t.rows[j] == r;
    assert t.rows[j].id == t.rows[i].id;
    if j != i {
      assert false;
    }
  }

  datatype UpdateResult = Updated(table: Table) | UpdateAborted

  /**
   * `updateRegistration` (`@Update`, i.e. `UPDATE OR ABORT ... WHERE id = ?`):
   * replaces the row whose id matches, and aborts when its new values would
   * break a unique index. When no row has the id nothing is written, so
   * nothing is checked and nothing aborts.
   */
  function Update(t: Table, e: Entity): (r: UpdateResult)
    ensures !HasId(t, e.id) ==> r == Updated(t)
    ensures r.Updated? ==> |r.table.rows| == |t.rows| && r.table.nextId == t.nextId
    ensures r.Updated? ==> forall i :: 0 <= i < |t.rows| ==>
      r.table.rows[i] == (if t.rows[i].id == e.id then e else t.rows[i])
    ensures r == UpdateAborted <==>
      HasId(t, e.id)
      && exists i :: 0 <= i < |t.rows| && t.rows[i].id != e.id && (t.rows[i].username == e.username || t.rows[i].email == e.email)
  {
    if !IsIdTaken(t, e.id) then Updated(t)
    else if exists i :: 0 <= i < |t.rows| && t.rows[i].id != e.id && (t.rows[i].username == e.username || t.rows[i].email == e.email)
    then UpdateAborted
    else Updated(Table(seq(|t.rows|, i requires 0 <= i < |t.rows| => if t.rows[i].id == e.id then e else t.rows[i]), t.nextId))
  }

  /** An update for an id no row has changes nothing, even when its username is taken. */
  lemma UpdateMissingIdIsNoOp()
    ensures var t := Table([Entity(1, "a", "p", "m", "pw", "", None, false)], 2);
      Valid(t) && Update(t, Entity(5, "a", "p", "m", "pw", "", None, false)) == Updated(t)
  {
    var t := Table([Entity(1, "a", "p", "m", "pw", "", None, false)], 2);
    assert !HasId(t, 5);
  }

  /** Rewriting an existing row with its username, email and id kept never aborts and keeps the table valid. */
  lemma UpdateSameKeys(t: Table, i: nat, e: Entity)
    requires Valid(t)
    requires i < |t.rows|
    requires e.id == t.rows[i].id && e.username == t.rows[i].username && e.email == t.rows[i].email
    ensures Update(t, e).Updated?
    ensures Valid(Update(t, e).table)
    ensures Update(t, e).table.rows == t.rows[i := e]
  {
    var rows := Update(t, e).table.rows;
    forall k | 0 <= k < |t.rows|
      ensures rows[k] == t.rows[i := e][k]
    {
      if k != i {
        assert t.rows[k].id != t.rows[i].id;
      }
    }
  }
}

=== FILE: registration_view_model.dfy ===
/**
 * The SDK's registration screen logic: field events re-validate one field
 * and recompute the form's validity; `Submit` runs the registration and
 * emits exactly one UI event.
 *
 * Each launched coroutine is one atomic step. The view model's
 * `UserRegistration` is built from the form's four fields with no selfie.
 */
module RegistrationViewModel {
  import opened Wrappers
  import opened Text
  import opened Exceptions
  import opened ValidationService
  import opened RegistrationStore
  import opened RegistrationRepository
  import SaveRegistrationUseCase

  datatype RegistrationState = RegistrationState(
    username: string,
    email: string,
    phoneNumber: string,
    password: string,
    deviceId: string,
    usernameError: Option<string>,
    emailError: Option<string>,
    phoneNumberError: Option<string>,
    passwordError: Option<string>,
    isLoading: bool,
    isFormValid: bool,
    registrationId: Option<int>,
    isRegistered: bool,
    selfieImagePath: Option<string>)

  const InitialState := RegistrationState("", "", "", "", "", None, None, None, None, false, false, None, false, None)

  datatype RegistrationEvent =
    | UsernameChanged(username: string)
    | EmailChanged(email: string)
    | PhoneNumberChanged(phoneNumber: string)
    | PasswordChanged(password: string)
    | Submit

  datatype UiEvent = NavigateToSelfie(registrationId: int) | ShowError(message: string)

  /** A validator's verdict as the state's error field. */
  function ErrorOf(v: ValidationResult): (e: Option<string>)
    ensures e == None <==> v == Success
    ensures v.Error? ==> e == Some(v.message)
  {
    match v
    case Success => None
    case Error(m) => Some(m)
  }

  /** The condition `updateFormValidity` computes. */
  ghost predicate FormComplete(s: RegistrationState) {
    && !IsBlank(s.username) && !IsBlank(s.email) && !IsBlank(s.phoneNumber) && !IsBlank(s.password)
    && s.usernameError == None && s.emailError == None && s.phoneNumberError == None && s.passwordError == None
  }

  /** `updateFormValidity`: only `isFormValid` changes. */
  function UpdateFormValidity(s: RegistrationState): (s': RegistrationState)
    ensures s'.isFormValid <==> FormComplete(s)
    ensures s' == s.(isFormValid := s'.isFormValid)
  {
    var valid := !IsBlank(s.username) && !IsBlank(s.email) && !IsBlank(s.phoneNumber) && !IsBlank(s.password)
      && s.usernameError.None? && s.emailError.None? && s.phoneNumberError.None? && s.passwordError.None?;
    s.(isFormValid := valid)
  }

  /** `onEvent` for the four field events: store the value, store the verdict, recompute validity. */
  function OnFieldEvent(s: RegistrationState, e: RegistrationEvent): (s': RegistrationState)
    requires !e.Submit?
    ensures s'.isFormValid <==> FormComplete(s')
    ensures e.UsernameChanged? ==>
      s' == s.(username := e.username, usernameError := ErrorOf(ValidateUsername(e.username)), isFormValid := s'.isFormValid)
    ensures e.EmailChanged? ==>
      s' == s.(email := e.email, emailError := ErrorOf(ValidateEmail(e.email)), isFormValid := s'.isFormValid)
    ensures e.PhoneNumberChanged? ==>
      s' == s.(phoneNumber := e.phoneNumber, phoneNumberError := ErrorOf(ValidatePhone(e.phoneNumber)), isFormValid := s'.isFormValid)
    ensures e.PasswordChanged? ==>
      s' == s.(password := e.password, passwordError := ErrorOf(ValidatePassword(e.password)), isFormValid := s'.isFormValid)
  {
    match e
    case UsernameChanged(u) =>
      var s1 := match ValidateUsername(u)
        case Success => s.(username := u, usernameError := None)
        case Error(m) => s.(username := u, usernameError := Some(m));
      UpdateFormValidity(s1)
    case EmailChanged(m) =>
      var s1 := match ValidateEmail(m)
        case Success => s.(email := m, emailError := None)
        case Error(msg) => s.(email := m, emailError := Some(msg));
      UpdateFormValidity(s1)
    case PhoneNumberChanged(p) =>
      var s1 := match ValidatePhone(p)
        case Success => s.(phoneNumber := p, phoneNumberError := None)
        case Error(msg) => s.(phoneNumber := p, phoneNumberError := Some(msg));
      UpdateFormValidity(s1)
    case PasswordChanged(p) =>
      var s1 := match ValidatePassword(p)
        case Success => s.(password := p, passwordError := None)
        case Error(msg) => s.(password := p, passwordError := Some(msg));
      UpdateFormValidity(s1)
  }

  /**
   * Each field either was never edited (still empty, no error) or holds its
   * value's verdict. True initially and kept by every field event.
   */
  ghost predicate FieldsConsistent(s: RegistrationState) {
    && (s.usernameError == ErrorOf(ValidateUsername(s.username)) || (s.username == [] && s.usernameError == None))
    && (s.emailError == ErrorOf(ValidateEmail(s.email)) || (s.email == [] && s.emailError == None))
    && (s.phoneNumberError == ErrorOf(ValidatePhone(s.phoneNumber)) || (s.phoneNumber == [] && s.phoneNumberError == None))
    && (s.passwordError == ErrorOf(ValidatePassword(s.password)) || (s.password == [] && s.passwordError == None))
  }

  lemma InitialStateConsistent()
    ensures FieldsConsistent(InitialState) && !InitialState.isFormValid
  {
  }

  lemma FieldEventKeepsConsistent(s: RegistrationState, e: RegistrationEvent)
    requires !e.Submit? && FieldsConsistent(s)
    ensures FieldsConsistent(OnFieldEvent(s, e))
  {
  }

  /**
   * After a field event the form is valid exactly when each of the four
   * values is non-blank and passes its validator.
   */
  lemma FieldEventValidity(s: RegistrationState, e: RegistrationEvent)
    requires !e.Submit? && FieldsConsistent(s)
    ensures var s' := OnFieldEvent(s, e);
      s'.isFormValid <==>
        && !IsBlank(s'.username) && ValidateUsername(s'.username) == Success
        && !IsBlank(s'.email) && ValidateEmail(s'.email) == Success
        && !IsBlank(s'.phoneNumber) && ValidatePhone(s'.phoneNumber) == Success
        && !IsBlank(s'.password) && ValidatePassword(s'.password) == Success
  {
    var s' := OnFieldEvent(s, e);
    FieldEventKeepsConsistent(s, e);
    assert !IsBlank(s'.username) ==> s'.username != [];
    assert !IsBlank(s'.email) ==> s'.email != [];
    assert !IsBlank(s'.phoneNumber) ==> s'.phoneNumber != [];
    assert !IsBlank(s'.password) ==> s'.password != [];
  }

  /** A username of three spaces passes its validator yet keeps the form invalid: it is blank. */
  lemma BlankUsernameKeepsFormInvalid(s: RegistrationState)
    ensures ValidateUsername("   ") == Success
    ensures !OnFieldEvent(s, UsernameChanged("   ")).isFormValid
  {
    assert IsBlank("   ");
  }

  // ---------------------------------------------------------------------
  // Submit

  /** What one run of `register` leaves behind. */
  datatype Registered = Registered(during: RegistrationState, state: RegistrationState, table: Table, event: UiEvent)

  /** The record the view model hands to the use case. */
  function RegistrationOf(s: RegistrationState): UserRegistration {
    UserRegistration(s.username, s.phoneNumber, s.email, s.password, None)
  }

  /**
   * The `try`/`catch`/`finally` of `register`, given what the use case
   * produced: exactly one event, and loading off again on both paths.
   */
  function FinishRegister(during: RegistrationState, saved: Outcome<int>): (r: (RegistrationState, UiEvent))
    ensures r.0 == during.(isLoading := false)
    ensures saved.Returned? ==> r.1 == NavigateToSelfie(saved.value)
    ensures saved.Threw? ==> r.1 == ShowError(saved.exception.message.GetOr("An unexpected error occurred"))
  {
    var event := match saved
      case Returned(id) => NavigateToSelfie(id)
      case Threw(e) => ShowError(e.message.GetOr("An unexpected error occurred"));
    (during.(isLoading := false), event)
  }

  /** `register`: loading on, the use case against the table, then `FinishRegister`. */
  function Register(s: RegistrationState, t: Table): (r: Registered)
    requires Valid(t)
    ensures Valid(r.table)
    ensures r.during == s.(isLoading := true) && r.state == s.(isLoading := false)
    ensures UsernameTaken(t, s.username) ==> r.table == t && r.event == ShowError("Username is already taken")
    ensures !UsernameTaken(t, s.username) && EmailTaken(t, s.email) ==>
      r.table == t && r.event == ShowError("Email is already registered")
    ensures !UsernameTaken(t, s.username) && !EmailTaken(t, s.email) ==>
      r.event == NavigateToSelfie(t.nextId) && r.table.rows == t.rows + [ToEntity(RegistrationOf(s)).(id := t.nextId)]
  {
    var during := s.(isLoading := true);
    var saved := SaveRegistrationUseCase.Invoke(t, RegistrationOf(during));
    var (state, event) := FinishRegister(during, saved.result);
    Registered(during, state, saved.table, event)
  }

  datatype Step = Step(state: RegistrationState, table: Table, event: Option<UiEvent>)

  /** `onEvent`: field events touch the form only; `Submit` registers. */
  function OnEvent(s: RegistrationState, e: RegistrationEvent, t: Table): (step: Step)
    requires Valid(t)
    ensures Valid(step.table)
    ensures !e.Submit? ==> step == Step(OnFieldEvent(s, e), t, None)
    ensures e.Submit? ==> step.event.Some? && step.state == s.(isLoading := false)
  {
    if e.Submit? then
      var r := Register(s, t);
      Step(r.state, r.table, Some(r.event))
    else Step(OnFieldEvent(s, e), t, None)
  }

  /** `Submit` does not consult `isFormValid`: an invalid form is submitted all the same. */
  lemma SubmitIgnoresFormValidity(s: RegistrationState, t: Table)
    requires Valid(t)
    ensures OnEvent(s.(isFormValid := false), Submit, t).table == OnEvent(s.(isFormValid := true), Submit, t).table
    ensures OnEvent(s.(isFormValid := false), Submit, t).event == OnEvent(s.(isFormValid := true), Submit, t).event
  {
  }
}

=== FILE: save_registration.dfy ===
/**
 * The `SaveRegistration` use case: username checked, then email, then the
 * insert. The SDK and the app carry the same code.
 */
module SaveRegistrationUseCase {
  import opened Wrappers
  import opened Exceptions
  import opened RegistrationStore
  import opened RegistrationRepository

  const UsernameTakenError := Exception(IllegalArgument, Some("Username is already taken"))
  const EmailTakenError := Exception(IllegalArgument, Some("Email is already registered"))

  datatype Saved = Saved(table: Table, result: Outcome<int>)

  /** `SaveRegistration.invoke`. */
  function Invoke(t: Table, r: UserRegistration): (s: Saved)
    requires Valid(t)
    ensures Valid(s.table)
    ensures UsernameTaken(t, r.username) ==> s == Saved(t, Threw(UsernameTakenError))
    ensures !UsernameTaken(t, r.username) && EmailTaken(t, r.email) ==> s == Saved(t, Threw(EmailTakenError))
    ensures s.result.Threw? ==> s.table == t
    ensures s.result.Returned? <==> !UsernameTaken(t, r.username) && !EmailTaken(t, r.email)
    ensures s.result.Returned? ==>
      && s.result.value == t.nextId
      && !HasId(t, s.result.value)
      && s.table.rows == t.rows + [ToEntity(r).(id := s.result.value)]
  {
    if UsernameTaken(t, r.username) then Saved(t, Threw(UsernameTakenError))
    else if EmailTaken(t, r.email) then Saved(t, Threw(EmailTakenError))
    else
      match SaveRegistration(t, r)
      case Inserted(t', id) =>
        InsertPreservesValid(t, ToEntity(r));
        Saved(t', Returned(id))
      case Aborted =>
        assert false;
        Saved(t, Threw(Exception(Other, None)))
  }

  /** Submitting the same registration twice: the second fails on the username. */
  lemma SecondSubmissionRejected(t: Table, r: UserRegistration)
    requires Valid(t)
    requires Invoke(t, r).result.Returned?
    ensures Invoke(Invoke(t, r).table, r) == Saved(Invoke(t, r).table, Threw(UsernameTakenError))
  {
    var t1 := Invoke(t, r).table;
    assert t1.rows[|t1.rows| - 1].username == r.username;
  }
}

=== FILE: selfie_store.dfy ===
/**
 * The SDK's selfie repository: one JPEG file per registration in the app's
 * private files directory, named from the registration id.
 *
 * The directory is a map from file name to contents; the bitmap arrives
 * already encoded as JPEG bytes. What the file system does is an oracle
 * passed in by the caller: whether the write threw (and what it left
 * behind), and whether `File.delete` succeeded.
 */
module SelfieStore {
  import opened Wrappers
  import opened Text
  import opened Exceptions

  type Contents = seq<int>

  /** A `file://` URI, identified by the file's name inside the files directory. */
  datatype Uri = FileUri(fileName: string)

  datatype Files = Files(entries: map<string, Contents>)

  const SelfieNotFound := Exception(Other, Some("Selfie not found"))
  const DeleteFailed := Exception(Other, Some("Failed to delete selfie"))

  /** `"selfie_%d.jpg".format(registrationId)`. */
  function FileName(registrationId: int): (name: string)
    ensures |name| > 11 && name[..7] == "selfie_" && name[|name| - 4..] == ".jpg"
    ensures name[7..|name| - 4] == IntToString(registrationId)
  {
    IntToStringRoundTrip(registrationId);
    "selfie_" + IntToString(registrationId) + ".jpg"
  }

  /** Distinct registrations never share a file. */
  lemma FileNameInjective(a: int, b: int)
    requires FileName(a) == FileName(b)
    ensures a == b
  {
    IntToStringInjective(a, b);
  }

  /** A write that threw, and the file as the failed write left it. */
  datatype WriteFailure = WriteFailure(exception: Exception, leftover: Option<Contents>)

  /** `saveSelfie`: (over)write the registration's file and return its URI. */
  function SaveSelfie(fs: Files, registrationId: int, jpeg: Contents, failure: Option<WriteFailure>): (r: (Files, Outcome<Uri>))
    ensures var name := FileName(registrationId);
      forall other :: other != name ==>
        && (other in r.0.entries <==> other in fs.entries)
        && (other in fs.entries ==> r.0.entries[other] == fs.entries[other])
    ensures failure.None? ==>
      && r.1 == Returned(FileUri(FileName(registrationId)))
      && FileName(registrationId) in r.0.entries && r.0.entries[FileName(registrationId)] == jpeg
    ensures failure.Some? ==> r.1 == Threw(failure.value.exception)
  {
    var name := FileName(registrationId);
    match failure
    case None => (Files(fs.entries[name := jpeg]), Returned(FileUri(name)))
    case Some(WriteFailure(e, leftover)) =>
      var entries := if leftover.Some? then fs.entries[name := leftover.value] else fs.entries - {name};
      (Files(entries), Threw(e))
  }

  /** `getSelfie`: the URI of the registration's file, or "Selfie not found". */
  function GetSelfie(fs: Files, registrationId: int): (r: Outcome<Uri>)
    ensures r.Returned? <==> FileName(registrationId) in fs.entries
    ensures r.Returned? ==> r.value == FileUri(FileName(registrationId))
    ensures r.Threw? ==> r.exception == SelfieNotFound
  {
    var name := FileName(registrationId);
    if name !in fs.entries then Threw(SelfieNotFound) else Returned(FileUri(name))
  }

  /**
   * `deleteSelfie`: remove the registration's file; a missing file is
   * already deleted, and a failed delete leaves the file in place.
   */
  function DeleteSelfie(fs: Files, registrationId: int, deleteSucceeds: bool): (r: (Files, Outcome<()>))
    ensures r.1.Threw? <==> FileName(registrationId) in fs.entries && !deleteSucceeds
    ensures r.1.Threw? ==> r.1.exception == DeleteFailed && r.0 == fs
    ensures r.1.Returned? ==> r.0.entries == fs.entries - {FileName(registrationId)}
  {
    var name := FileName(registrationId);
    if name in fs.entries && !deleteSucceeds then (fs, Threw(DeleteFailed))
    else (Files(fs.entries - {name}), Returned(()))
  }

  /** Reading back a selfie just saved gives the URI the save returned. */
  lemma GetAfterSave(fs: Files, registrationId: int, jpeg: Contents)
    ensures var (fs', saved) := SaveSelfie(fs, registrationId, jpeg, None);
      GetSelfie(fs', registrationId) == saved
  {
  }

  /** After a successful delete the selfie is gone. */
  lemma GetAfterDelete(fs: Files, registrationId: int, deleteSucceeds: bool)
    requires DeleteSelfie(fs, registrationId, deleteSucceeds).1.Returned?
    ensures GetSelfie(DeleteSelfie(fs, registrationId, deleteSucceeds).0, registrationId) == Threw(SelfieNotFound)
  {
  }

  /** Deleting twice is deleting once: the second call finds nothing and succeeds whatever the file system says. */
  lemma DeleteIdempotent(fs: Files, registrationId: int, first: bool, second: bool)
    requires DeleteSelfie(fs, registrationId, first).1.Returned?
    ensures var fs1 := DeleteSelfie(fs, registrationId, first).0;
      DeleteSelfie(fs1, registrationId, second) == (fs1, Returned(()))
  {
    var fs1 := DeleteSelfie(fs, registrationId, first).0;
    assert fs1.entries - {FileName(registrationId)} == fs1.entries;
  }

  /** Saving or deleting one registration's selfie leaves another's as it was. */
  lemma OtherSelfiesUntouched(fs: Files, a: int, b: int, jpeg: Contents, failure: Option<WriteFailure>, deleteSucceeds: bool)
    requires a != b
    ensures GetSelfie(SaveSelfie(fs, a, jpeg, failure).0, b) == GetSelfie(fs, b)
    ensures GetSelfie(DeleteSelfie(fs, a, deleteSucceeds).0, b) == GetSelfie(fs, b)
  {
    if FileName(a) == FileName(b) {
      FileNameInjective(a, b);
    }
  }

  /** A save overwrites: only the latest contents remain. */
  lemma SaveOverwrites(fs: Files, registrationId: int, first: Contents, second: Contents)
    ensures var fs1 := SaveSelfie(fs, registrationId, first, None).0;
      SaveSelfie(fs1, registrationId, second, None) == SaveSelfie(fs, registrationId, second, None)
  {
    var name := FileName(registrationId);
    assert fs.entries[name := first][name := second] == fs.entries[name := second];
  }
}

=== FILE: selfie_view_model.dfy ===
/**
 * The SDK's selfie screen logic: which registration the screen is for,
 * loading that registration's stored selfie, and the three user events
 * (capture, retake, save-and-continue).
 *
 * Each launched coroutine is one atomic step, applied in the order it is
 * issued. The selfie store is passed in and out; what the file system does
 * on a delete or a write is an oracle carried by the event.
 */
module SelfieViewModel {
  import opened Wrappers
  import opened Text
  import opened Exceptions
  import opened SelfieStore

  datatype SelfieState = SelfieState(
    isLoading: bool,
    error: Option<string>,
    isCaptureSuccess: bool,
    isSaved: bool,
    savedImage: Option<Uri>)

  const InitialSelfieState := SelfieState(false, None, false, false, None)

  datatype ViewModel = ViewModel(state: SelfieState, currentRegistrationId: int)

  datatype SelfieEvent =
    | OnPhotoCapture(jpeg: Contents, deleteSucceeds: bool, failure: Option<WriteFailure>) // the bitmap as JPEG, and how its write went
    | OnRetakePhoto(deleteSucceeds: bool)
    | OnSaveAndContinue

  datatype UiEvent = ShowSnackbar(message: string) | NavigateToRegister(registrationId: int)

  datatype Handled = Handled(vm: ViewModel, files: Files, event: Option<UiEvent>)

  const NotFoundMessage := "Selfie not found"

  /** What the state shows for the selfie stored under `registrationId`. */
  ghost predicate ShowsStoredSelfie(s: SelfieState, fs: Files, registrationId: int) {
    && s.savedImage == Some(FileUri(FileName(registrationId)))
    && FileName(registrationId) in fs.entries
    && s.isCaptureSuccess && s.error == None
  }

  /** The part of `loadSavedImage` after the lookup, for any outcome of it. */
  function LoadResult(s: SelfieState, got: Outcome<Uri>): (r: SelfieState)
    ensures !r.isLoading && r.isSaved == s.isSaved
    ensures got.Returned? ==> r == s.(savedImage := Some(got.value), isCaptureSuccess := true, error := None, isLoading := false)
    ensures got.Threw? && got.exception.message == Some(NotFoundMessage) ==> r == s.(isLoading := false)
    ensures got.Threw? && got.exception.message != Some(NotFoundMessage) ==>
      r == s.(error := Some("Failed to load saved photo: " + Show(got.exception.message)), isLoading := false)
  {
    var loading := s.(isLoading := true);
    match got
    case Returned(uri) => loading.(savedImage := Some(uri), isCaptureSuccess := true, error := None, isLoading := false)
    case Threw(e) =>
      if e.message != Some(NotFoundMessage) then
        loading.(error := Some("Failed to load saved photo: " + Show(e.message)), isLoading := false)
      else loading.(isLoading := false)
  }

  /** `loadSavedImage`: nothing for id 0, otherwise the stored selfie if there is one. */
  function Load(s: SelfieState, registrationId: int, fs: Files): (r: SelfieState)
    ensures registrationId == 0 ==> r == s
    ensures registrationId != 0 && FileName(registrationId) in fs.entries ==> ShowsStoredSelfie(r, fs, registrationId)
    ensures registrationId != 0 && FileName(registrationId) !in fs.entries ==> r == s.(isLoading := false)
    ensures r.isSaved == s.isSaved
  {
    if registrationId == 0 then s
    else LoadResult(s, GetSelfie(fs, registrationId))
  }

  /** Loading twice is loading once. */
  lemma LoadIdempotent(s: SelfieState, registrationId: int, fs: Files)
    ensures Load(Load(s, registrationId, fs), registrationId, fs) == Load(s, registrationId, fs)
  {
  }

  /** The fields `setRegistrationId` resets for a new id. */
  function Cleared(s: SelfieState): SelfieState {
    s.(savedImage := None, isCaptureSuccess := false, error := None, isLoading := false, isSaved := false)
  }

  /**
   * `setRegistrationId`: a no-op for the current id. For a new id the
   * property setter issues a load, the state is cleared, and a second load
   * is issued.
   */
  function SetRegistrationId(vm: ViewModel, id: int, fs: Files): (r: ViewModel)
    ensures id == vm.currentRegistrationId ==> r == vm
    ensures id != vm.currentRegistrationId ==>
      && r.currentRegistrationId == id
      && !r.state.isLoading && !r.state.isSaved
      && (if id != 0 && FileName(id) in fs.entries then ShowsStoredSelfie(r.state, fs, id)
          else r.state == Cleared(vm.state))
  {
    if id == vm.currentRegistrationId then vm
    else
      var afterSetter := Load(vm.state, id, fs);
      ViewModel(Load(Cleared(afterSetter), id, fs), id)
  }

  /**
   * The setter's load is overwritten by the clear: the result is one clear
   * and one load, and the same as if both loads ran after the clear.
   */
  lemma SetRegistrationIdLoadsOnce(vm: ViewModel, id: int, fs: Files)
    requires id != vm.currentRegistrationId
    ensures SetRegistrationId(vm, id, fs).state == Load(Cleared(vm.state), id, fs)
    ensures SetRegistrationId(vm, id, fs).state == Load(Load(Cleared(vm.state), id, fs), id, fs)
  {
    assert Cleared(Load(vm.state, id, fs)) == Cleared(vm.state);
    LoadIdempotent(Cleared(vm.state), id, fs);
  }

  /** `init`: adopt the id saved in the saved-state handle, if any, then load. */
  function Init(savedId: Option<int>, fs: Files): (r: ViewModel)
    ensures savedId.None? ==> r == ViewModel(InitialSelfieState, 0)
    ensures savedId.Some? ==> r.currentRegistrationId == savedId.value && !r.state.isLoading
    ensures savedId.Some? && savedId.value != 0 && FileName(savedId.value) in fs.entries ==>
      ShowsStoredSelfie(r.state, fs, savedId.value)
    ensures savedId.Some? && (savedId.value == 0 || FileName(savedId.value) !in fs.entries) ==>
      r.state == InitialSelfieState
  {
    match savedId
    case None => ViewModel(InitialSelfieState, 0)
    case Some(id) =>
      var afterSetter := if id != 0 then Load(InitialSelfieState, id, fs) else InitialSelfieState;
      ViewModel(Load(afterSetter, id, fs), id)
  }

  /** `onEvent`. */
  function OnEvent(vm: ViewModel, e: SelfieEvent, fs: Files): (r: Handled)
    ensures !r.vm.state.isLoading && r.vm.currentRegistrationId == vm.currentRegistrationId
    ensures r.event.Some? <==> e.OnSaveAndContinue? && vm.state.savedImage.Some?
    ensures r.event.Some? ==> r.event.value == NavigateToRegister(vm.currentRegistrationId) && r.vm.state.isSaved
    ensures e.OnSaveAndContinue? ==> r.files == fs
    ensures e.OnSaveAndContinue? && vm.state.savedImage.None? ==>
      r.vm.state == vm.state.(error := Some("Please take a photo first"), isLoading := false)
    ensures e.OnPhotoCapture? && e.failure.None? ==>
      ShowsStoredSelfie(r.vm.state, r.files, vm.currentRegistrationId) && r.files.entries[FileName(vm.currentRegistrationId)] == e.jpeg
    ensures e.OnPhotoCapture? && e.failure.Some? ==>
      r.vm.state == vm.state.(error := Some("Failed to save photo: " + Show(e.failure.value.exception.message)), isLoading := false)
    ensures e.OnRetakePhoto? && GetSelfie(r.files, vm.currentRegistrationId).Returned? ==>
      r.vm.state == vm.state.(error := Some("Failed to delete photo: " + Show(Some("Failed to delete selfie"))), isLoading := false)
    ensures e.OnRetakePhoto? && GetSelfie(r.files, vm.currentRegistrationId).Threw? ==>
      r.vm.state == vm.state.(savedImage := None, isCaptureSuccess := false, error := None, isLoading := false)
  {
    var id := vm.currentRegistrationId;
    var loading := vm.state.(isLoading := true);
    match e
    case OnPhotoCapture(jpeg, deleteSucceeds, failure) =>
      var (fs1, _) := DeleteSelfie(fs, id, deleteSucceeds);
      var (fs2, saved) := SaveSelfie(fs1, id, jpeg, failure);
      var s := match saved
        case Returned(uri) => loading.(savedImage := Some(uri), isCaptureSuccess := true, error := None, isLoading := false)
        case Threw(ex) => loading.(error := Some("Failed to save photo: " + Show(ex.message)), isLoading := false);
      Handled(ViewModel(s, id), fs2, None)
    case OnRetakePhoto(deleteSucceeds) =>
      var (fs1, deleted) := DeleteSelfie(fs, id, deleteSucceeds);
      var s := match deleted
        case Returned(_) => loading.(savedImage := None, isCaptureSuccess := false, error := None, isLoading := false)
        case Threw(ex) => loading.(error := Some("Failed to delete photo: " + Show(ex.message)), isLoading := false);
      Handled(ViewModel(s, id), fs1, None)
    case OnSaveAndContinue =>
      if loading.savedImage.Some? then
        Handled(ViewModel(loading.(isLoading := false, isSaved := true), id), fs, Some(NavigateToRegister(id)))
      else
        Handled(ViewModel(loading.(error := Some("Please take a photo first"), isLoading := false), id), fs, None)
  }

  /** The capture handler ignores how the delete went: the save decides the outcome. */
  lemma CaptureIgnoresDeleteResult(vm: ViewModel, fs: Files, jpeg: Contents)
    ensures OnEvent(vm, OnPhotoCapture(jpeg, false, None), fs) == OnEvent(vm, OnPhotoCapture(jpeg, true, None), fs)
  {
    var name := FileName(vm.currentRegistrationId);
    if name in fs.entries {
      assert (fs.entries - {name})[name := jpeg] == fs.entries[name := jpeg];
    }
  }

  /** After a successful retake, loading the same registration finds nothing. */
  lemma RetakeThenLoadFindsNothing(vm: ViewModel, fs: Files)
    requires vm.currentRegistrationId != 0
    ensures var r := OnEvent(vm, OnRetakePhoto(true), fs);
      r.vm.state.savedImage.None? && Load(r.vm.state, vm.currentRegistrationId, r.files).savedImage.None?
  {
  }

  /** A successful capture followed by a load shows the same image. */
  lemma CaptureThenLoad(vm: ViewModel, fs: Files, jpeg: Contents, deleteSucceeds: bool)
    requires vm.currentRegistrationId != 0
    ensures var r := OnEvent(vm, OnPhotoCapture(jpeg, deleteSucceeds, None), fs);
      Load(r.vm.state, vm.currentRegistrationId, r.files) == r.vm.state
  {
  }

  // ---------------------------------------------------------------------
  // The state's image and the store

  /** A shown image is the current registration's stored selfie. */
  ghost predicate InSync(vm: ViewModel, fs: Files) {
    vm.state.savedImage.Some? ==>
      vm.state.savedImage == Some(FileUri(FileName(vm.currentRegistrationId))) && FileName(vm.currentRegistrationId) in fs.entries
  }

  /**
   * As written, a capture whose save fails has already deleted the previous
   * selfie but keeps showing it, and save-and-continue then navigates with
   * no selfie stored.
   */
  lemma FailedCaptureLeavesStaleImage()
    ensures var vm := ViewModel(SelfieState(false, None, true, false, Some(FileUri(FileName(5)))), 5);
      var fs := Files(map[FileName(5) := [1]]);
      var r := OnEvent(vm, OnPhotoCapture([2], true, Some(WriteFailure(Exception(Other, Some("disk full")), None))), fs);
      && InSync(vm, fs)
      && !InSync(r.vm, r.files)
      && GetSelfie(r.files, 5) == Threw(SelfieNotFound)
      && OnEvent(r.vm, OnSaveAndContinue, r.files).event == Some(NavigateToRegister(5))
  {
  }

  /** The corrected handlers: a failed save also drops the image it may have deleted. */
  function OnEventCorrected(vm: ViewModel, e: SelfieEvent, fs: Files): (r: Handled)
    ensures e.OnPhotoCapture? && e.failure.Some? ==>
      r.vm.state == vm.state.(error := Some("Failed to save photo: " + Show(e.failure.value.exception.message)),
                              savedImage := None, isCaptureSuccess := false, isLoading := false)
    ensures !(e.OnPhotoCapture? && e.failure.Some?) ==> r == OnEvent(vm, e, fs)
  {
    var r := OnEvent(vm, e, fs);
    if e.OnPhotoCapture? && e.failure.Some? then
      Handled(r.vm.(state := r.vm.state.(savedImage := None, isCaptureSuccess := false)), r.files, r.event)
    else r
  }

  /**
   * With the correction every handler keeps the state's image in step with
   * the store, so save-and-continue only navigates with a stored selfie.
   */
  lemma CorrectedKeepsInSync(vm: ViewModel, e: SelfieEvent, fs: Files)
    requires InSync(vm, fs)
    ensures InSync(OnEventCorrected(vm, e, fs).vm, OnEventCorrected(vm, e, fs).files)
    ensures OnEventCorrected(vm, e, fs).event.Some? ==> GetSelfie(fs, vm.currentRegistrationId).Returned?
  {
  }

  /** A new registration id also leaves the state in step with the store. */
  lemma SetRegistrationIdInSync(vm: ViewModel, id: int, fs: Files)
    requires InSync(vm, fs)
    ensures InSync(SetRegistrationId(vm, id, fs), fs)
  {
  }
}

=== FILE: seqs.dfy ===
/** Counting occurrences in sequences, for the effect traces of the state machines. */
module Seqs {
  function Count<T(==)>(xs: seq<T>, x: T): (n: nat)
    ensures n <= |xs|
    ensures n == 0 <==> x !in xs
  {
    if xs == [] then 0
    else Count(xs[..|xs| - 1], x) + (if xs[|xs| - 1] == x then 1 else 0)
  }

  lemma {:induction false} CountAppend<T>(a: seq<T>, b: seq<T>, x: T)
    ensures Count(a + b, x) == Count(a, x) + Count(b, x)
    decreases |b|
  {
    if b != [] {
      assert (a + b)[..|a + b| - 1] == a + b[..|b| - 1];
      CountAppend(a, b[..|b| - 1], x);
    } else {
      assert a + b == a;
    }
  }
}

=== FILE: smile_analyzer.dfy ===
/**
 * The SDK's `SmileDetectionAnalyzer`: a debounce counter over analysis
 * frames that fires a one-shot smile signal after three consecutive frames
 * with a single smiling face, and reports face-quality problems on the way.
 *
 * One call of `analyze` together with the detector's callbacks for that
 * frame is one atomic step (the analyzer and the callbacks run on the main
 * executor). The frame's fate is an oracle: it has no image, preparing it
 * throws, or the detector reports faces or a failure.
 */
module SmileAnalyzer {
  import opened Wrappers
  import opened Text
  import opened FaceDetection
  import opened Seqs

  const RequiredSmileFrames: nat := 3
  const SmileThreshold: real := 0.8

  datatype AnalyzerState = AnalyzerState(isSmileDetected: bool, lastTrackingId: Option<int>, consecutiveSmileFrames: int)

  const InitialAnalyzer := AnalyzerState(false, None, 0)

  /** The counter is below the bar until the signal fires, and sits at the bar afterwards. */
  ghost predicate Valid(s: AnalyzerState) {
    if s.isSmileDetected then s.consecutiveSmileFrames == RequiredSmileFrames
    else 0 <= s.consecutiveSmileFrames < RequiredSmileFrames
  }

  datatype FrameOutcome =
    | Prepared(detection: Detection)     // the image went to the detector
    | PrepareThrew(message: Option<string>) // building the input image or starting detection threw

  datatype Frame = Frame(hasImage: bool, outcome: FrameOutcome)

  datatype Effect =
    | SmileDetected                 // onSmileDetected()
    | FaceQualityError(message: string) // onFaceQualityError(message)
    | CloseFrame                    // imageProxy.close()

  datatype Analysis = Analysis(state: AnalyzerState, effects: seq<Effect>)

  predicate IsSmiling(f: Face) {
    SmileOrZero(f) > SmileThreshold
  }

  /** A frame that reaches the detector and comes back with faces. */
  predicate Counted(f: Frame) {
    f.hasImage && f.outcome.Prepared? && f.outcome.detection.Faces?
  }

  /** A counted frame with exactly one face, and that face smiling. */
  predicate SmilingFrame(f: Frame) {
    Counted(f) && |f.outcome.detection.faces| == 1 && IsSmiling(f.outcome.detection.faces[0])
  }

  /** `analyze`, with the detector's listeners for the same frame. */
  function Analyze(s: AnalyzerState, f: Frame): (r: Analysis)
    ensures Valid(s) ==> Valid(r.state)
    ensures r.state.lastTrackingId == s.lastTrackingId
    ensures |r.effects| >= 1 && r.effects[|r.effects| - 1] == CloseFrame && Count(r.effects, CloseFrame) == 1
    ensures SmileDetected in r.effects <==> !s.isSmileDetected && r.state.isSmileDetected
    ensures s.isSmileDetected ==> r.state == s
    ensures !Counted(f) ==> r.state == s
    ensures !s.isSmileDetected && Counted(f) && !SmilingFrame(f) ==> r.state == s.(consecutiveSmileFrames := 0)
    ensures !s.isSmileDetected && SmilingFrame(f) ==> r.state.consecutiveSmileFrames == s.consecutiveSmileFrames + 1
    ensures !s.isSmileDetected && SmilingFrame(f) ==>
      (r.state.isSmileDetected <==> s.consecutiveSmileFrames + 1 >= RequiredSmileFrames)
  {
    if !f.hasImage || s.isSmileDetected then Analysis(s, [CloseFrame])
    else match f.outcome
      case PrepareThrew(m) =>
        Analysis(s, [FaceQualityError("Error analyzing image: " + Show(m)), CloseFrame])
      case Prepared(DetectionFailed(m)) =>
        Analysis(s, [FaceQualityError("Face detection failed: " + Show(m)), CloseFrame])
      case Prepared(Faces(faces)) =>
        if |faces| == 0 then
          Analysis(s.(consecutiveSmileFrames := 0), [FaceQualityError("No face detected"), CloseFrame])
        else if |faces| > 1 then
          Analysis(s.(consecutiveSmileFrames := 0), [FaceQualityError("Multiple faces detected"), CloseFrame])
        else if IsSmiling(faces[0]) then
          var n := s.consecutiveSmileFrames + 1;
          if n >= RequiredSmileFrames then
            Analysis(s.(consecutiveSmileFrames := n, isSmileDetected := true), [SmileDetected, CloseFrame])
          else Analysis(s.(consecutiveSmileFrames := n), [CloseFrame])
        else Analysis(s.(consecutiveSmileFrames := 0), [CloseFrame])
  }

  /** The face-quality message a frame reports, if any. */
  lemma QualityMessages(s: AnalyzerState, f: Frame)
    requires !s.isSmileDetected && f.hasImage
    ensures f.outcome.Prepared? && f.outcome.detection.Faces? && |f.outcome.detection.faces| == 0 ==>
      Analyze(s, f).effects == [FaceQualityError("No face detected"), CloseFrame]
    ensures f.outcome.Prepared? && f.outcome.detection.Faces? && |f.outcome.detection.faces| > 1 ==>
      Analyze(s, f).effects == [FaceQualityError("Multiple faces detected"), CloseFrame]
    ensures f.outcome.Prepared? && f.outcome.detection.DetectionFailed? ==>
      Analyze(s, f).effects == [FaceQualityError("Face detection failed: " + Show(f.outcome.detection.message)), CloseFrame]
    ensures f.outcome.PrepareThrew? ==>
      Analyze(s, f).effects == [FaceQualityError("Error analyzing image: " + Show(f.outcome.message)), CloseFrame]
  {
  }

  /** `reset`. */
  function Reset(s: AnalyzerState): (r: AnalyzerState)
    ensures Valid(r) && !r.isSmileDetected
    ensures r == InitialAnalyzer
  {
    AnalyzerState(false, None, 0)
  }

  /** The analyzer over a sequence of frames, in arrival order. */
  function Run(s: AnalyzerState, frames: seq<Frame>): (r: Analysis)
    ensures Valid(s) ==> Valid(r.state)
    decreases |frames|
  {
    if frames == [] then Analysis(s, [])
    else
      var before := Run(s, frames[..|frames| - 1]);
      var step := Analyze(before.state, frames[|frames| - 1]);
      Analysis(step.state, before.effects + step.effects)
  }

  /**
   * Reference count: the number of trailing smiling frames, where frames the
   * detector did not count (no image, an exception, a detector failure) are
   * skipped and any other counted frame breaks the run.
   */
  function Streak(frames: seq<Frame>): nat {
    if frames == [] then 0
    else
      var f := frames[|frames| - 1];
      var earlier := Streak(frames[..|frames| - 1]);
      if !Counted(f) then earlier
      else if SmilingFrame(f) then earlier + 1
      else 0
  }

  /** Some prefix of the frames reached the required streak. */
  ghost predicate Fired(frames: seq<Frame>) {
    exists k :: 0 <= k <= |frames| && Streak(frames[..k]) >= RequiredSmileFrames
  }

  /**
   * From the initial state, the analyzer has fired exactly when some prefix
   * of the frames held three consecutive smiling frames; until then its
   * counter is the current streak.
   */
  lemma {:induction false} RunMatchesStreak(frames: seq<Frame>)
    ensures Run(InitialAnalyzer, frames).state.isSmileDetected <==> Fired(frames)
    ensures !Fired(frames) ==> Run(InitialAnalyzer, frames).state.consecutiveSmileFrames == Streak(frames)
    decreases |frames|
  {
    if frames == [] {
      assert forall k :: 0 <= k <= 0 ==> frames[..k] == [];
    } else {
      var p := frames[..|frames| - 1];
      RunMatchesStreak(p);
      assert forall k :: 0 <= k <= |p| ==> frames[..k] == p[..k];
      assert frames[..|frames|] == frames;
      if Fired(p) {
        var k :| 0 <= k <= |p| && Streak(p[..k]) >= RequiredSmileFrames;
        assert Streak(frames[..k]) >= RequiredSmileFrames;
      } else if Fired(frames) {
        var k :| 0 <= k <= |frames| && Streak(frames[..k]) >= RequiredSmileFrames;
        assert k == |frames|;
      }
    }
  }

  /** Over any run the smile signal is emitted at most once, and exactly when the run sets the flag. */
  lemma {:induction false} RunSignalsOnce(s: AnalyzerState, frames: seq<Frame>)
    ensures Count(Run(s, frames).effects, SmileDetected) == (if !s.isSmileDetected && Run(s, frames).state.isSmileDetected then 1 else 0)
    ensures s.isSmileDetected ==> Run(s, frames).state == s
    decreases |frames|
  {
    if frames != [] {
      var p := frames[..|frames| - 1];
      RunSignalsOnce(s, p);
      var before := Run(s, p);
      var step := Analyze(before.state, frames[|frames| - 1]);
      CountAppend(before.effects, step.effects, SmileDetected);
      assert Count(step.effects, SmileDetected) <= 1 by {
        assert SmileDetected in step.effects ==> step.effects == [SmileDetected, CloseFrame];
      }
    }
  }

  /** Every frame of a run is closed exactly once. */
  lemma {:induction false} RunClosesEveryFrame(s: AnalyzerState, frames: seq<Frame>)
    ensures Count(Run(s, frames).effects, CloseFrame) == |frames|
    decreases |frames|
  {
    if frames != [] {
      var p := frames[..|frames| - 1];
      RunClosesEveryFrame(s, p);
      CountAppend(Run(s, p).effects, Analyze(Run(s, p).state, frames[|frames| - 1]).effects, CloseFrame);
    }
  }

  /** A frame showing a single face with the given probability. */
  function SmileFrame(p: real): Frame {
    Frame(true, Prepared(Faces([Face(Some(p))])))
  }

  /** Three smiling frames fire once; two do not; a frown in between restarts the count. */
  lemma SmileExamples()
    ensures Run(InitialAnalyzer, [SmileFrame(0.9), SmileFrame(0.9)]).state.consecutiveSmileFrames == 2
    ensures !Run(InitialAnalyzer, [SmileFrame(0.9), SmileFrame(0.9)]).state.isSmileDetected
    ensures Run(InitialAnalyzer, [SmileFrame(0.9), SmileFrame(0.9), SmileFrame(0.9)]).state.isSmileDetected
    ensures !Run(InitialAnalyzer, [SmileFrame(0.9), SmileFrame(0.3), SmileFrame(0.9), SmileFrame(0.9)]).state.isSmileDetected
    ensures Run(InitialAnalyzer, [SmileFrame(0.9), SmileFrame(0.3), SmileFrame(0.9), SmileFrame(0.9), SmileFrame(0.9)]).state.isSmileDetected
  {
    var a := [SmileFrame(0.9), SmileFrame(0.3), SmileFrame(0.9), SmileFrame(0.9), SmileFrame(0.9)];
    assert a[..4] == [SmileFrame(0.9), SmileFrame(0.3), SmileFrame(0.9), SmileFrame(0.9)];
    assert a[..4][..3] == [SmileFrame(0.9), SmileFrame(0.3), SmileFrame(0.9)];
    assert a[..4][..3][..2] == [SmileFrame(0.9), SmileFrame(0.3)];
    assert a[..4][..3][..2][..1] == [SmileFrame(0.9)];
    var b := [SmileFrame(0.9), SmileFrame(0.9), SmileFrame(0.9)];
    assert b[..2] == [SmileFrame(0.9), SmileFrame(0.9)];
    assert b[..2][..1] == [SmileFrame(0.9)];
  }

  /** After `reset` the analyzer is re-armed: three smiling frames fire it again, whatever came before. */
  lemma ResetRearms(s: AnalyzerState)
    ensures Count(Run(Reset(s), [SmileFrame(0.9), SmileFrame(0.9), SmileFrame(0.9)]).effects, SmileDetected) == 1
  {
    var b := [SmileFrame(0.9), SmileFrame(0.9), SmileFrame(0.9)];
    assert b[..2] == [SmileFrame(0.9), SmileFrame(0.9)];
    assert b[..2][..1] == [SmileFrame(0.9)];
    RunSignalsOnce(Reset(s), b);
  }
}

=== FILE: text.dfy ===
/**
 * Character classes and small string helpers shared by the validators,
 * the error taxonomy and the selfie file naming.
 *
 * Kotlin's `isDigit`, `isLetter`, `isUpperCase`, `isLowerCase`,
 * `isWhitespace` and `lowercase` are Unicode-aware; here they are restricted
 * to ASCII. Regex classes such as `[0-9]` and `\d` are ASCII in the source too.
 */
module Text {
  import opened Wrappers

  predicate IsDigit(c: char) { '0' <= c <= '9' }
  predicate IsUpper(c: char) { 'A' <= c <= 'Z' }
  predicate IsLower(c: char) { 'a' <= c <= 'z' }
  predicate IsLetter(c: char) { IsUpper(c) || IsLower(c) }

  /** Kotlin `Char.isWhitespace` on the ASCII range. */
  predicate IsWhitespace(c: char) {
    c == ' ' || ('\t' <= c <= '\r') || ('\U{1C}' <= c <= '\U{1F}')
  }

  /** Kotlin `CharSequence.isBlank`: empty or whitespace only. */
  predicate IsBlank(s: string) {
    forall i :: 0 <= i < |s| ==> IsWhitespace(s[i])
  }

  /** Kotlin `CharSequence.any { p(it) }`. */
  predicate Any(s: string, p: char -> bool) {
    exists i :: 0 <= i < |s| && p(s[i])
  }

  /** Every character of `s` satisfies `p`. */
  predicate All(s: string, p: char -> bool) {
    forall i :: 0 <= i < |s| ==> p(s[i])
  }

  /** Every character of `s` in positions `lo` to `hi` (exclusive) satisfies `p`. */
  predicate AllIn(s: string, lo: int, hi: int, p: char -> bool) {
    forall i :: lo <= i < hi && 0 <= i < |s| ==> p(s[i])
  }

  /** Kotlin `Char.lowercaseChar` on the ASCII range. */
  function LowerChar(c: char): (r: char)
    ensures IsUpper(c) ==> r as int == c as int + 32
    ensures !IsUpper(c) ==> r == c
    ensures !IsUpper(r)
  {
    if IsUpper(c) then (c as int + 32) as char else c
  }

  /** Kotlin `String.lowercase()` on the ASCII range. */
  function Lower(s: string): (r: string)
    ensures |r| == |s|
    ensures forall i :: 0 <= i < |s| ==> r[i] == LowerChar(s[i])
  {
    seq(|s|, i requires 0 <= i < |s| => LowerChar(s[i]))
  }

  /** How a Kotlin string template renders a nullable message. */
  function Show(m: Option<string>): string {
    m.GetOr("null")
  }

  /** A character outside the Basic Multilingual Plane: a surrogate pair in UTF-16. */
  predicate IsSupplementary(c: char) { c as int >= 0x1_0000 }

  /**
   * Kotlin `String.length`: UTF-16 code units, so a character outside the
   * Basic Multilingual Plane counts twice.
   */
  function Utf16Length(s: string): (n: nat)
    ensures |s| <= n <= 2 * |s|
    ensures n == |s| <==> forall i :: 0 <= i < |s| ==> !IsSupplementary(s[i])
    ensures n == 0 <==> s == []
    decreases |s|
  {
    if s == [] then 0
    else
      var init := s[..|s| - 1];
      assert forall i :: 0 <= i < |init| ==> init[i] == s[i];
      Utf16Length(init) + (if IsSupplementary(s[|s| - 1]) then 2 else 1)
  }

  /** Length is additive over concatenation. */
  lemma {:induction false} Utf16LengthAppend(a: string, b: string)
    ensures Utf16Length(a + b) == Utf16Length(a) + Utf16Length(b)
    decreases |b|
  {
    if b == [] {
      assert a + b == a;
    } else {
      var b' := b[..|b| - 1];
      Utf16LengthAppend(a, b');
      assert (a + b)[..|a + b| - 1] == a + b';
    }
  }

  /** The decimal digit for `d`. */
  function DigitChar(d: nat): (c: char)
    requires d < 10
    ensures IsDigit(c)
  {
    ('0' as int + d) as char
  }

  /** Decimal rendering of a natural number, without leading zeros. */
  function NatToString(n: nat): (s: string)
    decreases n
  {
    if n < 10 then [DigitChar(n)] else NatToString(n / 10) + [DigitChar(n % 10)]
  }

  /** Decimal rendering of an integer, as `%d` formats a Long. */
  function IntToString(n: int): string {
    if n < 0 then "-" + NatToString(-n) else NatToString(n)
  }

  /** The value of a decimal digit. */
  function DigitValue(c: char): nat
    requires IsDigit(c)
  {
    c as int - '0' as int
  }

  /** Reads a string of decimal digits back as a number; the inverse of `NatToString`. */
  function ParseNat(s: string): nat
    requires All(s, IsDigit)
  {
    if |s| == 0 then 0 else ParseNat(s[..|s| - 1]) * 10 + DigitValue(s[|s| - 1])
  }

  /** Reads back what `IntToString` writes. */
  function ParseInt(s: string): int
    requires |s| > 0 && (s[0] == '-' ==> All(s[1..], IsDigit)) && (s[0] != '-' ==> All(s, IsDigit))
  {
    if s[0] == '-' then -(ParseNat(s[1..]) as int) else ParseNat(s)
  }

  lemma {:induction false} NatToStringDigits(n: nat)
    ensures |NatToString(n)| > 0
    ensures All(NatToString(n), IsDigit)
    ensures ParseNat(NatToString(n)) == n
    decreases n
  {
    if n >= 10 {
      NatToStringDigits(n / 10);
      var s := NatToString(n);
      assert s[..|s| - 1] == NatToString(n / 10);
    }
  }

  /** Decimal rendering round-trips, so distinct numbers render differently. */
  lemma IntToStringRoundTrip(n: int)
    ensures var s := IntToString(n);
      |s| > 0 && (s[0] == '-' <==> n < 0)
      && (s[0] == '-' ==> All(s[1..], IsDigit)) && (s[0] != '-' ==> All(s, IsDigit))
      && ParseInt(s) == n
  {
    if n < 0 {
      NatToStringDigits(-n);
      assert IntToString(n)[1..] == NatToString(-n);
    } else {
      NatToStringDigits(n);
    }
  }

  lemma IntToStringInjective(a: int, b: int)
    requires IntToString(a) == IntToString(b)
    ensures a == b
  {
    IntToStringRoundTrip(a);
    IntToStringRoundTrip(b);
  }

  /**
   * The end of the longest run of characters satisfying `p` that starts at
   * `from`: how a greedy regex class `[...]+` consumes input.
   */
  function Span(s: string, from: nat, p: char -> bool): (r: nat)
    requires from <= |s|
    ensures from <= r <= |s|
    ensures AllIn(s, from, r, p)
    ensures r < |s| ==> !p(s[r])
    decreases |s| - from
  {
    if from == |s| || !p(s[from]) then from else Span(s, from + 1, p)
  }

  /** The start of the longest run of characters satisfying `p` that ends at `stop`. */
  function SpanBack(s: string, stop: nat, p: char -> bool): (r: nat)
    requires stop <= |s|
    ensures r <= stop
    ensures AllIn(s, r, stop, p)
    ensures 0 < r ==> !p(s[r - 1])
    decreases stop
  {
    if stop == 0 || !p(s[stop - 1]) then stop else SpanBack(s, stop - 1, p)
  }

  /** A maximal run is unique: any run that ends where `p` fails is the `Span`. */
  lemma SpanUnique(s: string, from: nat, p: char -> bool, e: nat)
    requires from <= e <= |s|
    requires AllIn(s, from, e, p)
    requires e < |s| ==> !p(s[e])
    ensures Span(s, from, p) == e
  {
  }

  /** A maximal run backwards is unique too. */
  lemma SpanBackUnique(s: string, stop: nat, p: char -> bool, b: nat)
    requires b <= stop <= |s|
    requires AllIn(s, b, stop, p)
    requires 0 < b ==> !p(s[b - 1])
    ensures SpanBack(s, stop, p) == b
  {
  }
}

=== FILE: validation_service.dfy ===
/**
 * The registration SDK's field validation service: one check per field,
 * each mapping the raw field text to success or to the first failing
 * reason, in a fixed order.
 *
 * The two regular expressions are anchored whole-string matches. Each is
 * given twice: as a declarative decomposition of the input (what the regex
 * means) and as a greedy left-to-right scan (how a matcher decides it); the
 * lemmas below prove the two agree.
 */
module ValidationService {
  import opened Text

  datatype ValidationResult = Success | Error(message: string)

  const MinUsernameLength: nat := 3
  const MinPasswordLength: nat := 8

  // ---------------------------------------------------------------------
  // Email: [a-zA-Z0-9._-]+@[a-z]+\.+[a-z]+

  predicate IsEmailLocalChar(c: char) {
    IsLetter(c) || IsDigit(c) || c == '.' || c == '_' || c == '-'
  }

  predicate IsDot(c: char) { c == '.' }

  /** The part from `start` on: `[a-z]+`, then `\.+`, then `[a-z]+`, to the end. */
  ghost predicate EmailDomainRegex(s: string, start: nat) {
    exists j, k :: start < j < k < |s| && AllIn(s, start, j, IsLower) && AllIn(s, j, k, IsDot) && AllIn(s, k, |s|, IsLower)
  }

  /** The whole email pattern, as a decomposition of the input. */
  ghost predicate EmailRegex(s: string) {
    exists i :: 0 < i < |s| && s[i] == '@' && AllIn(s, 0, i, IsEmailLocalChar) && EmailDomainRegex(s, i + 1)
  }

  /** Greedy scan of the domain part. */
  function ScanEmailDomain(s: string, start: nat): bool
    requires start <= |s|
  {
    var j := Span(s, start, IsLower);
    var k := Span(s, j, IsDot);
    start < j < k < |s| && Span(s, k, IsLower) == |s|
  }

  /** Greedy scan of the whole pattern: the local part cannot contain '@'. */
  function ScanEmail(s: string): bool {
    var i := Span(s, 0, IsEmailLocalChar);
    0 < i < |s| && s[i] == '@' && ScanEmailDomain(s, i + 1)
  }

  lemma ScanEmailDomainCorrect(s: string, start: nat)
    requires start <= |s|
    ensures ScanEmailDomain(s, start) <==> EmailDomainRegex(s, start)
  {
    if EmailDomainRegex(s, start) {
      var j, k :| start < j < k < |s| && AllIn(s, start, j, IsLower) && AllIn(s, j, k, IsDot) && AllIn(s, k, |s|, IsLower);
      SpanUnique(s, start, IsLower, j);
      SpanUnique(s, j, IsDot, k);
      SpanUnique(s, k, IsLower, |s|);
    }
  }

  lemma ScanEmailCorrect(s: string)
    ensures ScanEmail(s) <==> EmailRegex(s)
  {
    var i := Span(s, 0, IsEmailLocalChar);
    if ScanEmail(s) {
      ScanEmailDomainCorrect(s, i + 1);
    }
    if EmailRegex(s) {
      var i' :| 0 < i' < |s| && s[i'] == '@' && AllIn(s, 0, i', IsEmailLocalChar) && EmailDomainRegex(s, i' + 1);
      SpanUnique(s, 0, IsEmailLocalChar, i');
      ScanEmailDomainCorrect(s, i' + 1);
    }
  }

  /** `validateEmail`: required, then the pattern. */
  function ValidateEmail(email: string): (r: ValidationResult)
    ensures email == [] ==> r == Error("Email is required")
    ensures email != [] && !EmailRegex(email) ==> r == Error("Invalid email format")
    ensures r == Success <==> email != [] && EmailRegex(email)
  {
    ScanEmailCorrect(email);
    if email == [] then Error("Email is required")
    else if !ScanEmail(email) then Error("Invalid email format")
    else Success
  }

  /** After position `lo`, the dots of `s` form one contiguous run. */
  ghost predicate DotsContiguous(s: string, lo: nat) {
    forall a, b, c :: lo < a < b < c < |s| && s[a] == '.' && s[c] == '.' ==> s[b] == '.'
  }

  /**
   * The shape of an accepted email around its '@' at `i`: no other '@';
   * after it only lower-case letters and dots, starting and ending with a
   * letter, with at least one dot, the dots forming one contiguous run.
   */
  ghost predicate EmailShapeAt(email: string, i: nat) {
    && 0 < i < |email| - 1 && email[i] == '@'
    && (forall k :: 0 <= k < |email| && k != i ==> email[k] != '@')
    && AllIn(email, i + 1, |email|, c => IsLower(c) || c == '.')
    && IsLower(email[i + 1]) && IsLower(email[|email| - 1])
    && (exists k :: i + 1 < k < |email| - 1 && email[k] == '.')
    && DotsContiguous(email, i)
  }

  lemma AcceptedEmailShape(email: string)
    requires ValidateEmail(email) == Success
    ensures exists i: nat :: EmailShapeAt(email, i)
  {
    var i :| 0 < i < |email| && email[i] == '@' && AllIn(email, 0, i, IsEmailLocalChar) && EmailDomainRegex(email, i + 1);
    var j, k :| i + 1 < j < k < |email| && AllIn(email, i + 1, j, IsLower) && AllIn(email, j, k, IsDot) && AllIn(email, k, |email|, IsLower);
    assert IsLower(email[i + 1]) && email[j] == '.';
    assert EmailShapeAt(email, i);
  }

  /** Two dot-separated runs after '@' are one too many. */
  lemma EmailRejectsTwoDomainDots()
    ensures ValidateEmail("a@b.c.d") == Error("Invalid email format")
  {
    var e := "a@b.c.d";
    if ValidateEmail(e) == Success {
      AcceptedEmailShape(e);
    }
  }

  /** The required-check is `isEmpty`, not `isBlank`: a blank email is malformed, not missing. */
  lemma BlankEmailIsMalformed()
    ensures ValidateEmail("   ") == Error("Invalid email format")
  {
    if ValidateEmail("   ") == Success {
      AcceptedEmailShape("   ");
    }
  }

  // ---------------------------------------------------------------------
  // Phone: ^[+]?[0-9]{10,13}$

  /** The phone pattern's two alternatives: without and with the leading '+'. */
  ghost predicate PhoneRegex(s: string) {
    || (All(s, IsDigit) && 10 <= |s| <= 13)
    || (|s| > 0 && s[0] == '+' && All(s[1..], IsDigit) && 10 <= |s| - 1 <= 13)
  }

  /** Greedy scan: take the optional '+', then digits to the end. */
  function ScanPhone(s: string): bool {
    var start := if |s| > 0 && s[0] == '+' then 1 else 0;
    Span(s, start, IsDigit) == |s| && 10 <= |s| - start <= 13
  }

  lemma ScanPhoneCorrect(s: string)
    ensures ScanPhone(s) <==> PhoneRegex(s)
  {
    var start := if |s| > 0 && s[0] == '+' then 1 else 0;
    if PhoneRegex(s) {
      if start == 1 {
        assert !IsDigit(s[0]);
        assert forall m :: 1 <= m < |s| ==> s[m] == s[1..][m - 1];
      }
      SpanUnique(s, start, IsDigit, |s|);
    }
    if ScanPhone(s) && start == 1 {
      assert forall m :: 0 <= m < |s| - 1 ==> s[1..][m] == s[m + 1];
    }
  }

  /** `validatePhone`: required, then the pattern. */
  function ValidatePhone(phone: string): (r: ValidationResult)
    ensures phone == [] ==> r == Error("Phone number is required")
    ensures phone != [] && !PhoneRegex(phone) ==> r == Error("Invalid phone number format")
    ensures r == Success <==> PhoneRegex(phone)
  {
    ScanPhoneCorrect(phone);
    if phone == [] then Error("Phone number is required")
    else if !ScanPhone(phone) then Error("Invalid phone number format")
    else Success
  }

  /** An accepted phone number has 10 to 14 characters: digits, after at most one leading '+'. */
  lemma AcceptedPhoneShape(phone: string)
    requires ValidatePhone(phone) == Success
    ensures 10 <= |phone| <= 14
    ensures forall k :: 0 < k < |phone| ==> IsDigit(phone[k])
    ensures IsDigit(phone[0]) || phone[0] == '+'
    ensures phone[0] == '+' ==> 11 <= |phone|
  {
    if phone[0] == '+' {
      assert forall k :: 0 < k < |phone| ==> phone[k] == phone[1..][k - 1];
    }
  }

  // ---------------------------------------------------------------------
  // Username and password

  /** `validateUsername`: required, then a length of at least three UTF-16 units, of any kind. */
  function ValidateUsername(username: string): (r: ValidationResult)
    ensures r == Success <==> Utf16Length(username) >= MinUsernameLength
    ensures username == [] ==> r == Error("Username is required")
    ensures 0 < Utf16Length(username) < MinUsernameLength ==> r == Error("Username must be at least 3 characters")
  {
    if username == [] then Error("Username is required")
    else if Utf16Length(username) < MinUsernameLength then Error("Username must be at least 3 characters")
    else Success
  }

  /** `validatePassword`: the first failing check, in a fixed order. */
  function ValidatePassword(password: string): (r: ValidationResult)
    ensures r == Success <==>
      Utf16Length(password) >= MinPasswordLength && Any(password, IsDigit) && Any(password, IsUpper) && Any(password, IsLower)
    ensures password == [] ==> r == Error("Password is required")
    ensures 0 < Utf16Length(password) < MinPasswordLength ==> r == Error("Password must be at least 8 characters")
    ensures Utf16Length(password) >= MinPasswordLength && !Any(password, IsDigit) ==>
      r == Error("Password must contain at least one number")
    ensures Utf16Length(password) >= MinPasswordLength && Any(password, IsDigit) && !Any(password, IsUpper) ==>
      r == Error("Password must contain at least one uppercase letter")
    ensures Utf16Length(password) >= MinPasswordLength && Any(password, IsDigit) && Any(password, IsUpper) && !Any(password, IsLower) ==>
      r == Error("Password must contain at least one lowercase letter")
  {
    if password == [] then Error("Password is required")
    else if Utf16Length(password) < MinPasswordLength then Error("Password must be at least 8 characters")
    else if !Any(password, IsDigit) then Error("Password must contain at least one number")
    else if !Any(password, IsUpper) then Error("Password must contain at least one uppercase letter")
    else if !Any(password, IsLower) then Error("Password must contain at least one lowercase letter")
    else Success
  }

  /** A username of three spaces is accepted: length is all that is checked. */
  lemma SpacesUsernameAccepted()
    ensures ValidateUsername("   ") == Success
  {
  }

  /**
   * Length is counted in UTF-16 units: two emoji are four units, so a
   * two-character username passes, while two plain letters do not.
   */
  lemma EmojiUsernameAccepted()
    ensures ValidateUsername("\U{1F600}\U{1F600}") == Success
    ensures ValidateUsername("ab") == Error("Username must be at least 3 characters")
  {
    assert Utf16Length("\U{1F600}\U{1F600}") == 4 by {
      assert "\U{1F600}\U{1F600}"[..1] == "\U{1F600}";
      assert "\U{1F600}"[..0] == "";
    }
    assert Utf16Length("ab") == 2 by {
      assert "ab"[..1] == "a";
      assert "a"[..0] == "";
    }
  }
}

=== FILE: wrappers.dfy ===
/** Optional values, standing in for Kotlin's nullable types. */
module Wrappers {

  datatype Option<+T> = None | Some(value: T) {

    /** The wrapped value, or `default` when absent (Kotlin's `?:`). */
    function GetOr(default: T): T {
      match this
      case Some(v) => v
      case None => default
    }
  }
}
